=== FILE: README.md ===
# o2locktop stream checker, modelled in Dafny

`tests/test.py` of o2locktop reads the screen output of a running `o2locktop`
monitor line by line. It checks each refresh ("frame") of that output and
takes TOTAL, the lock acquisition count, from every frame. It then runs two
kinds of invariant tests on TOTAL. A dynamic test checks that TOTAL rises while
the monitored directory is listed in a loop. A static test checks that TOTAL
stays within ten percent when nothing happens.

This project models the Python 3 path of that checker as pure functions over a
finite sequence of lines, and proves properties of it. Modules:

- `Text` (text.dfy): the Python string operations the checker relies on.
  These are `in`, `replace`, `strip`, `split`, `isalpha` and `isdigit`.
  Whitespace is Python's `str.isspace` set.
- `Numbers` (numbers.dfy): Python's `int()` on a string and `str()` on an
  integer. It also covers the comma-grouped counts the monitor prints.
- `Lines` (lines.dfy): `remove_clear`, the four `is_*_line` keyword tests and
  `get_line_type`.
- `Handlers` (handlers.dfy): `handle_first_line`, `handle_second_line`,
  `handle_third_line` (including the extra line it may read) and `handle_head`.
- `Rows` (rows.dfy): `not_negative` and `handle_one_line`. It gives the row
  check both as written and as evidently intended (see Findings). It also has
  rows rendered the way the monitor prints them.
- `Frame` (frame.dfy): the labelled `test_one_fram` as a phase machine. It
  starts from TOTAL's value on entry and reads lines. The result is the new
  TOTAL, the row verdicts and the number of lines read. Alternatively it ends
  at the end of the input, or with an exception that escapes. `TestOneFrame`
  checks rows with `handle_one_line` as written, so a row with a negative
  counter makes the frame raise (see Findings). `CorrectedFrame` is the same
  machine with the corrected row check.
- `Verdicts` (verdicts.dfy): the ten-percent window of the static test, and
  the local and remote criteria of the dynamic test.
- `Monitor` (monitor.dfy): `dynamics_test`, `static_test` and the cycle
  schedule of `run`, with each frame reading on from where the previous one
  stopped.

Modelling choices:

- TOTAL is an explicit argument and result, not a global. When
  `handle_second_line` returns `False`, TOTAL becomes 0, as the source's
  `False` compares.
- An exception that escapes a frame is a `Crashed` outcome. Examples are a
  `ValueError` from `int()` and an `IndexError` on a short resources line.
- The end of input is `EndOfInput`. There the source's `got_eof` wrapper exits
  the process.
- The volume's UUID, its largest inode and `length` are the frame's parameters
  (`Frame.Env`). Looking them up is outside the model, and one `Env` serves
  every frame of a run.

The model follows the code in these places, even where a reader might expect
otherwise:

- `remove_clear` is not idempotent. Removing one clear sequence can bring
  together the pieces of another, which then survives the single pass.
- The first line's UUID comparison is made and its verdict dropped. A frame
  with a foreign UUID still takes TOTAL from the line after it.
- A number column of a lock row only has to be digits once its dashes are
  dropped. So "1-2" is classified as part of a row, and `int("1-2")` then
  raises.
- The Python 3 `dynamics_test` reads five frames. The first gives `total1`
  and the other four are the samples. The Python 2 branch adds two more.
- TOTAL is the printed acquisition count plus one. The row loop runs
  `length + 1` times.

## Model

| member | source | states |
|---|---|---|
| Lines.RemoveClear | tests/test.py:175-177 | removing the clear sequences never lengthens a line and introduces no character |
| Lines.RemoveClearPlain | tests/test.py:175-177 | a line without an escape character is returned unchanged |
| Lines.RemoveClearLeading | tests/test.py:175-177 | a refresh that begins with either clear sequence, in either order of its three controls, yields the plain text after it |
| Lines.RemoveClearNotIdempotent | tests/test.py:175-177 | on a line with one sequence nested inside another, one pass leaves a whole sequence and a second pass removes it |
| Text.ContainsIffOccurs | tests/test.py:194-197 | the keyword test `key_word in line` holds exactly when the keyword occurs at some position |
| Lines.Classify | tests/test.py:214-236 | the kind returned for a line is one whose own keyword or shape test admits that line |
| Lines.GetLineType | tests/test.py:205-236 | the kind of a raw line is admitted by the line left once the clear sequences are removed |
| Lines.ClassifyFirstMatch | tests/test.py:206-236 | a line gets kind k exactly when k's own test admits it and no test earlier in the order first, second, third, head, locks, blank does |
| Lines.Code | tests/test.py:214-236 | the code `get_line_type` returns is at most 5, and is 5 exactly for blank and unknown lines |
| Lines.CodeShared | tests/test.py:214-236 | the numeric codes 0..5 are distinct, except that blank and unknown share 5 |
| Lines.SeparatorsAreBlank | tests/test.py:233-234 | a line of whitespace only is classified blank |
| Text.SplitJoin | tests/test.py:222 | splitting words joined by single spaces gives the words back |
| Text.SplitIgnoresStrip | tests/test.py:222 | `strip()` before `split()` changes nothing |
| Numbers.ParseIntString | tests/test.py:180-191 | `int(str(n))` is `n` for every integer, negative ones included |
| Numbers.ParseDashDigits | tests/test.py:225-231 | a token of digits and dashes is readable by `int()` exactly when it is digits with at most one leading minus |
| Numbers.ParseGrouped | tests/test.py:277 | a count printed with thousands separators reads back as the count once the commas are removed |
| Rows.NotNegative | tests/test.py:180-191 | `not_negative` holds exactly when `int()` reads the token and its value is not negative |
| Rows.NotNegativeOfIntString | tests/test.py:180-191 | `not_negative(str(n))` holds exactly when n >= 0 |
| Handlers.HandleFirst | tests/test.py:240-258 | a supplied first line is accepted exactly when it splits into five tokens and the last is the UUID |
| Handlers.CountPlusOne | tests/test.py:277 | a count is never a rejection: when `int()` reads the token with its commas dropped the result is that value plus one, and otherwise it carries the token `int()` cannot read |
| Handlers.HandleSecond | tests/test.py:261-277 | the line is rejected, the source's False, exactly when it does not split into ten tokens; otherwise the result is the count of its sixth token |
| Handlers.HandleThird | tests/test.py:280-307 | the handler reads another line exactly when the line, newlines made spaces, splits into fewer than four tokens; otherwise the count is `int()` of the fourth token plus one, a raise when `int()` fails |
| Handlers.HandleThirdRetry | tests/test.py:296-307 | the extra line fails at `line[3]` exactly when it splits into fewer than four tokens, and otherwise yields its fourth token's count plus one |
| Handlers.HandleHead | tests/test.py:325-343 | a non-empty supplied line is accepted exactly when, stripped and with its spaces removed, it is the canonical header |
| Handlers.HandleHeadRead | tests/test.py:326-343 | reading its own line, `handle_head` accepts exactly a line that contains "TIME(us)" and, stripped and with its spaces removed, is the canonical header |
| Handlers.CanonicalHeadLiteral | tests/test.py:340 | the monitor's column names run together are exactly the literal the space-free header is compared with |
| Handlers.FirstLineTokens | tests/test.py:240-258 | a first line is accepted exactly when it has five tokens and the last is the UUID |
| Handlers.SecondLineTokens | tests/test.py:261-277 | a ten-token second line whose sixth token prints n yields n + 1; any other width yields the source's False |
| Handlers.SecondLineNinetyNine | tests/test.py:272-277 | the printed count "99" makes TOTAL 100 |
| Handlers.ThirdLineTokens | tests/test.py:280-307 | a resources line of four or more tokens whose fourth prints m yields m + 1; a shorter one makes the handler read another line |
| Handlers.RetryLineTokens | tests/test.py:296-307 | the extra line read for a short resources line yields m + 1 when its fourth token prints m, and raises when it has fewer than four tokens |
| Handlers.ColumnsAccepted | tests/test.py:325-343 | the column header as the monitor prints it is classified head and accepted |
| Handlers.HeadOfColumns | tests/test.py:325-343 | any layout of space-separated words that run together into the canonical header, one of them holding "TIME(us)", is classified head and accepted |
| Handlers.HeadRefusesForeignChar | tests/test.py:336-342 | a stripped header holding a character other than a space that the canonical header lacks is refused |
| Handlers.CanonicalLacksMarkers | tests/test.py:200-203 | the canonical header holds none of the letters o, a, r, so none of the earlier keyword tests can match it |
| Text.RemoveCharIdempotent | tests/test.py:340 | removing the spaces of a header twice gives what removing them once gives |
| Rows.HandleOneLineAsWritten | tests/test.py:346-373 | as written, the row check raises only on an eight-token line, with the inode error exactly when `int()` cannot read the inode; it accepts only eight tokens whose six counters are readable and not negative |
| Rows.HandleOneLine | tests/test.py:346-373 | corrected, the row check raises only on an eight-token line whose inode `int()` cannot read; it accepts only eight tokens whose six counters are readable and not negative |
| Rows.OneLineAcceptsIff | tests/test.py:346-373 | the corrected row check accepts exactly eight tokens with an inode in (0, max_inode] and six counters that read as integers >= 0; it raises only on an unreadable inode |
| Rows.OneLineAsWrittenRaises | tests/test.py:361-366 | as written, the row check raises on an eight-token line with a readable inode exactly when some counter fails `not_negative` |
| Rows.OneLineFixAgrees | tests/test.py:363-366 | the corrected check differs from the written one only where the written one raises, and there it rejects the row |
| Rows.RowLineIsLocks | tests/test.py:222-232 | every row as the monitor prints it is classified as a lock row, negative numbers included |
| Rows.RowLineCheck | tests/test.py:346-373 | the corrected check accepts a printed row exactly when its inode is in (0, max_inode] and no counter is negative |
| Rows.RowLineAsWritten | tests/test.py:361-373 | as written, a printed row crashes the check exactly when a counter is negative, and otherwise gets the corrected verdict |
| Rows.NegativeCounterCrashes | tests/test.py:363-366 | the row "M 5 -1 0 0 0 0 0" with max inode 10 raises as written and is rejected once corrected |
| Rows.DashedInodeRaises | tests/test.py:222-232 | the row "M 1-2 0 0 0 0 0 0" is classified as a lock row, and both the row check as written and the corrected one then raise on its inode |
| Frame.See | tests/test.py:214-232 | a line classified second passes the acquisitions test; one classified third passes the resources test and not the acquisitions test; a lock row passes neither |
| Frame.SetTotal | tests/test.py:409 | assigning the second-line result to TOTAL fails exactly on an unreadable count, with `BadCount` of that token; otherwise TOTAL becomes the count, or 0 for the source's `False`, the frame goes on to the third line and the rows are kept |
| Frame.AfterThird | tests/test.py:411-413 | the resources step fails exactly when the fourth token's count is unreadable, with `BadCount` of that token; otherwise TOTAL and the rows are unchanged, and the frame reads one more line only when that line was short |
| Frame.SecondLineCrashes | tests/test.py:262-277 | a first line followed by an acquisitions line of ten tokens whose sixth `int()` cannot read ends the frame with `BadCount` of that token, as `handle_second_line()` at :426 raises `ValueError` |
| Frame.CheckRow | tests/test.py:420-422 | a row check adds exactly its verdict to the rows and leaves TOTAL alone, unless it raises |
| Frame.Advance | tests/test.py:403-433 | one header line keeps the rows checked so far and adds at most one, within what the phase still allows |
| Frame.Budget | tests/test.py:434 | `range(length + 1)` iterates `length + 1` times, and not at all when `length` is negative |
| Frame.RowLoop | tests/test.py:434-439 | the row loop never changes TOTAL, reads no more lines than it is given, and appends at most as many verdicts as it has iterations left |
| Frame.RowsPhase | tests/test.py:434-439 | the row loop checks a run of leading row lines, each getting its own verdict, then stops when its iterations are spent or after reading one line that is not a row |
| Frame.Run | tests/test.py:403-439 | a frame that completes reads at least one header line, no more lines than it is given, and keeps earlier verdicts as a prefix |
| Frame.CheckFrame | tests/test.py:392-439 | with either row check, a complete frame reads at least one line and at most all of them |
| Frame.TestOneFrame | tests/test.py:392-439 | the frame as written: when it completes it has read at least one line and at most all of them |
| Frame.CorrectedFrame | tests/test.py:392-439 | the frame with the corrected row check: when it completes it has read at least one line and at most all of them |
| Frame.FrameRowBound | tests/test.py:420-439 | a frame checks at most `length + 2` rows: one met while searching and `length + 1` in the loop |
| Frame.SearchSkipsUnknown | tests/test.py:403-423 | lines of unknown kind before the frame are skipped and change nothing but the count of lines read |
| Frame.EntryAtRowsKeepsTotal | tests/test.py:417-422 | a frame that enters at the column header or at a row leaves TOTAL as the previous frame left it |
| Frame.HeaderRun | tests/test.py:404-433 | five header lines take a searching frame into the row loop with TOTAL from the acquisition count, whatever the UUID |
| Frame.PrintedFrame | tests/test.py:392-439 | a frame printed by the monitor whose counters are all non-negative yields TOTAL = count + 1 and one verdict per row, each the row's validity, after reading header, rows and one stop line; when some row has a negative counter the frame raises out of `handle_one_line` |
| Frame.CorrectedPrintedFrame | tests/test.py:392-439 | with the corrected row check every frame printed by the monitor completes, with TOTAL = count + 1 and one verdict per row, each the row's validity |
| Verdicts.StaticWindow | tests/test.py:553 | the integer test 10*t2 <= 11*t1 and 9*t1 <= 10*t2 is the source's ten-percent window over exact rationals |
| Verdicts.StaticPass | tests/test.py:553 | a passing pair has both counts non-negative, and below 10 only an unchanged count passes |
| Verdicts.StaticNeedsNonNegative | tests/test.py:553 | a passing pair has both counts non-negative |
| Verdicts.StaticReflexive | tests/test.py:553 | an unchanged count passes exactly when it is not negative |
| Verdicts.StaticConvex | tests/test.py:553 | a count between two passing counts passes |
| Verdicts.StaticExamples | tests/test.py:553 | 210, 220 and 180 are within ten percent of 200; 230, 221 and 179 are not |
| Verdicts.LocalPass | tests/test.py:502-508 | the local test passes exactly when some sample exceeds total1 |
| Verdicts.RemotePass | tests/test.py:535-540 | the remote test passes exactly when some sample exceeds total1 |
| Verdicts.FirstExceeding | tests/test.py:503-508 | the index found is of a sample above total1 with none before it, and none is found only when no sample exceeds total1 |
| Verdicts.LocalCheck | tests/test.py:502-508 | the flag loop sets the flag exactly when some sample exceeds total1, stopping at the first such sample |
| Verdicts.Max | tests/test.py:536 | `max` returns an element of the list no smaller than any other |
| Verdicts.LocalAgreesWithRemote | tests/test.py:503-537 | "some sample exceeds total1" and "the largest sample exceeds total1" agree on every non-empty list |
| Verdicts.DynamicExamples | tests/test.py:503-537 | samples holding 145 pass against 100 and samples never above 100 fail, under both criteria |
| Monitor.FramesAreSound | tests/test.py:392-439 | every complete frame reads at least one line and no more than it is given |
| Monitor.ReadFrames | tests/test.py:492-499 | reading several frames in a row gives one TOTAL per frame, from at least one line each |
| Monitor.ReadFramesChain | tests/test.py:492-499 | each frame starts with the TOTAL the previous one left, on the lines the previous one did not read |
| Monitor.Dynamic | tests/test.py:477-543 | a dynamic test that reaches a verdict has read at least one line and no more than it was given; an interrupted one carries the outcome of a frame that did not complete |
| Monitor.DynamicsTest | tests/test.py:477-543 | the dynamic test reaches a verdict exactly when its five frames complete; the verdict carries the fifth frame's TOTAL and the lines those frames read |
| Monitor.DynamicModesAgree | tests/test.py:477-543 | local and remote mode give the same verdict on the same stream |
| Monitor.DynamicPassMeans | tests/test.py:492-508 | the dynamic test passes exactly when one of the four sample frames leaves a TOTAL above the first frame's |
| Monitor.StaticTest | tests/test.py:547-558 | the static test passes exactly when the second frame's TOTAL lies in the first's ten-percent window |
| Monitor.Cycles | tests/test.py:635-648 | a run from cycle c on starts at least c cycles and keeps the verdicts logged so far |
| Monitor.Steady | tests/test.py:645-648 | the rest of cycle c, one frame and the budget test, starts at least c cycles and keeps the verdicts logged so far |
| Monitor.CyclesWithinBudget | tests/test.py:632-648 | a run never starts more cycles than one past the budget, and a killed run has started exactly that many |
| Monitor.DynamicCountClosed | tests/test.py:636-640 | among cycles 1..n, (n + 8) / 10 start with a dynamic test |
| Monitor.CyclesVerdicts | tests/test.py:635-648 | a run logs one dynamic verdict per dynamic cycle started, one fewer when it stopped inside a dynamic test |
| Monitor.RunMonitor | tests/test.py:628-648 | a run of the frame as written starts at least one cycle and at most one past the budget, and a killed run has started exactly that many |
| Monitor.KilledRun | tests/test.py:628-648 | a run that spends its budget B starts max(1, B + 1) cycles and logs a dynamic verdict for every tenth of them from the second on |

## Left out

- Reading standard input, and `got_eof` exiting the process at the end of input: the input is a finite sequence of lines, and its end is the `EndOfInput` outcome.
- The Python 2 branches: `raw_input`, the second `test_one_fram` and the two extra dynamic samples.
- `get_uuid`, `get_max_inode`, `init`, argument parsing and `create_file`: their results are the parameters of `Frame.Env`, and of `Monitor.RunMonitor`'s node list and budget.
- Monitor.ReadFrames: every frame is read with the same `Env`. The source calls `get_uuid` and `get_max_inode` again at the start of each `test_one_fram` (tests/test.py:401-402), and the inode count `df -i` reports can change between frames; the model assumes both lookups return the same values for the whole run.
- Monitor.Cycles: the same assumption holds for every cycle of a run, and so for `Monitor.Steady` and `Monitor.RunMonitor`.
- The listing load (`ls_loop`, `ls_loop_on_node`), `Process`, `LS_FLAG`, ssh and scp: the load shows only as the frames the tests read.
- `kill_o2locktop`: a killed run is the `Killed` end of the report.
- Logging: every row verdict and test verdict the source only logs is a returned value here.
- `random.randint` in `run`: its branch does nothing, because `static_test` is commented out there.
- `consume_any_line`: nothing calls it.
- `handle_blank_space` verdict, and the verdicts of `handle_first_line` and `handle_head` inside a frame: the frame discards them, so they leave no trace.
- Handlers.HandleHead: an empty supplied line makes the source read a line of its own. That path is `Handlers.HandleHeadRead`, so `HandleHead` requires a non-empty line.
- The budget `days * 17280` is a float in the source: the model takes an integer budget, and `i > loop_times` on the integer `i` is the same test against the budget's floor.
- Verdicts.StaticPass: the source multiplies by the floats 1.1 and 0.9. The model uses the exact rationals, which can differ from the float products at the window's edges.
- Python's Unicode `isalpha`, `isdigit` and `int()` digits: only ASCII letters and digits are modelled.
- `tests/test_dlm.py` is not part of this model.

## Findings

| source | as written | input that shows it | evidently intended | confidence | as-written member | corrected member |
|---|---|---|---|---|---|---|
| tests/test.py:363-366 | when a counter fails `not_negative`, the diagnostic formats `raw_line`, which is bound only when the function reads its own line; every frame supplies the line, so the call raises `UnboundLocalError` | the row "M 5 -1 0 0 0 0 0" with max inode 10 | log the row and return False | not executed | Rows.NegativeCounterCrashes | Frame.CorrectedPrintedFrame |

The model keeps the source's behaviour: `Frame.TestOneFrame`, and the run of
`Monitor.RunMonitor` built on it, check rows as written, so a printed row with a
negative counter ends the frame with `RowFailed(UnboundRawLine)`.
`Rows.RowLineCheck` and `Frame.CorrectedPrintedFrame` state the intended
behaviour, in which such a row is rejected and the frame completes.

=== FILE: frame.dfy ===
/** `test_one_fram`, the Python 3 version with `goto` labels, as a phase machine
    run over a finite sequence of raw lines. A frame threads the global TOTAL
    through as an argument and a result, and yields the verdicts of the rows it
    checked together with the number of lines it read. */
module Frame {
  import opened Options
  import opened Text
  import opened Numbers
  import opened Lines
  import opened Handlers
  import opened Rows

  /** What a frame is checked against: the volume's UUID, its largest inode
      number, and the `length` the monitor was started with. */
  datatype Env = Env(uuid: string, maxInode: int, length: int)

  /** The iterations of `for _ in range(length + 1)`. */
  function Budget(env: Env): (n: nat)
    ensures env.length >= 0 ==> n == env.length + 1
    ensures env.length < 0 ==> n == 0
  {
    if env.length + 1 > 0 then env.length + 1 else 0
  }

  // ---------------------------------------------------------------------------
  // What the frame makes of one line

  /** Everything the frame can learn from one line once its clear sequences are
      removed: its kind, and what each handler that may be given the line makes
      of it. The handlers are pure functions of the line, so which of them the
      frame consults is decided by the phase alone. */
  datatype View = View(
    kind: LineKind,           // `get_line_type`
    isSecond: bool,           // `is_second_line`, checked by `handle_second_line()`
    isThird: bool,            // `is_third_line`, checked by `handle_third_line()`
    second: Count,            // `handle_second_line(line)`
    third: ThirdStep,         // `handle_third_line(line)`, first look
    retry: Option<Count>,     // `handle_third_line` on the extra line it reads
    row: RowCheck)            // `handle_one_line(max_inode, line)`

  /** The view of one raw line, its row checked by the given version of
      `handle_one_line`. The keyword tests and the row check see the line
      without its clear sequences, as the classifier does. */
  function See(version: Version, maxInode: int, raw: string): (v: View)
    ensures v.kind == Second ==> v.isSecond
    ensures v.kind == Third ==> v.isThird && !v.isSecond
    ensures v.kind == Locks ==> !v.isSecond && !v.isThird
  {
    var line := RemoveClear(raw);
    View(GetLineType(raw), IsSecondLine(line), IsThirdLine(line),
         HandleSecond(line), HandleThird(line), HandleThirdRetry(line),
         CheckLine(version, maxInode, line))
  }

  function Views(version: Version, maxInode: int, lines: seq<string>): (vs: seq<View>)
    ensures |vs| == |lines|
  {
    if |lines| == 0 then [] else [See(version, maxInode, lines[0])] + Views(version, maxInode, lines[1..])
  }

  /** Each line is seen on its own. */
  lemma {:induction false} ViewsAt(version: Version, maxInode: int, lines: seq<string>, i: nat)
    requires i < |lines|
    ensures Views(version, maxInode, lines)[i] == See(version, maxInode, lines[i])
    decreases i
  {
    if i > 0 {
      ViewsAt(version, maxInode, lines[1..], i - 1);
      assert lines[1..][i - 1] == lines[i];
    }
  }

  lemma {:induction false} ViewsAppend(version: Version, maxInode: int, a: seq<string>, b: seq<string>)
    ensures Views(version, maxInode, a + b) == Views(version, maxInode, a) + Views(version, maxInode, b)
    decreases |a|
  {
    if |a| == 0 {
      assert a + b == b;
    } else {
      assert (a + b)[0] == a[0];
      assert (a + b)[1..] == a[1..] + b;
      ViewsAppend(version, maxInode, a[1..], b);
    }
  }

  // ---------------------------------------------------------------------------
  // The phase machine

  /** Where the frame stands. Each reading phase names the code that reads the
      next line. */
  datatype Phase =
    | Search             // the `while True` loop, classifying each line
    | ExpectSecond       // label `.first`: `handle_second_line()` reads
    | ExpectThird        // label `.second`: `handle_third_line()` reads
    | ThirdRetry         // inside `handle_third_line`, reading a second line
    | ExpectBlank        // label `.third`: `handle_blank_space()` reads
    | ExpectHead         // label `.blank`: `handle_head()` reads
    | InRows(left: nat)  // label `.head`: the row loop, `left` iterations to go

  /** The exceptions a frame lets escape. */
  datatype Failure =
    | BadCount(token: string)   // `int()` on a count raised `ValueError`
    | ShortResources            // `line[3]` on a short resources line: `IndexError`
    | RowFailed(error: RowError)

  datatype Step = Next(phase: Phase, total: int, rows: seq<bool>) | Fail(failure: Failure)

  /** How a frame ends: read completely after `used` lines, at the end of the
      input (where the source exits), or with an escaping exception. */
  datatype Outcome =
    | Complete(total: int, rows: seq<bool>, used: nat)
    | EndOfInput
    | Crashed(failure: Failure)

  /** `TOTAL = handle_second_line(...)`; the source's `False` counts as 0. */
  function SetTotal(c: Count, rows: seq<bool>): (s: Step)
    ensures s.Next? <==> !c.NotANumber?
    ensures s.Next? ==> s.phase == ExpectThird && s.rows == rows
    ensures s.Next? ==> s.total == (if c.Parsed? then c.n else 0)
    ensures s.Fail? ==> s.failure == BadCount(c.token)
  {
    match c
    case Rejected => Next(ExpectThird, 0, rows)
    case Parsed(n) => Next(ExpectThird, n, rows)
    case NotANumber(t) => Fail(BadCount(t))
  }

  /** After a look at a resources line, whose count is discarded. */
  function AfterThird(t: ThirdStep, total: int, rows: seq<bool>): (s: Step)
    ensures s.Next? ==> s.rows == rows && s.total == total
    ensures s.Next? ==> s.phase == (if t.ReadAnother? then ThirdRetry else ExpectBlank)
    ensures s.Fail? <==> t.Resources? && t.count.NotANumber?
    ensures s.Fail? ==> s.failure == BadCount(t.count.token)
  {
    match t
    case ReadAnother => Next(ThirdRetry, total, rows)
    case Resources(NotANumber(t)) => Fail(BadCount(t))
    case Resources(_) => Next(ExpectBlank, total, rows)
  }

  /** `handle_one_line(max_inode, line)`, whose verdict only reaches the log. */
  function CheckRow(c: RowCheck, next: Phase, total: int, rows: seq<bool>): (s: Step)
    ensures s.Fail? <==> c.Raised?
    ensures s.Next? ==> s.phase == next && s.total == total && s.rows == rows + [c.ok]
  {
    match c
    case Raised(e) => Fail(RowFailed(e))
    case Checked(ok) => Next(next, total, rows + [ok])
  }

  /** How many more rows a phase may still check: the row loop's remaining
      iterations, plus one for a row met while searching. */
  function Allowance(env: Env, p: Phase): (n: nat)
  {
    match p
    case Search => Budget(env) + 1
    case InRows(k) => k
    case _ => Budget(env)
  }

  /** A step from phase `p` that keeps the rows checked so far and adds at most
      one, within what `p` still allows. */
  predicate Fits(env: Env, p: Phase, rows: seq<bool>, s: Step) {
    s.Next? ==>
      && |rows| <= |s.rows| <= |rows| + 1 && s.rows[..|rows|] == rows
      && |s.rows| + Allowance(env, s.phase) <= |rows| + Allowance(env, p)
  }

  /** One line read by the header part of the frame, in phase `p`. While searching, the `goto`s make the line's
      kind decide the label the frame continues from. The verdicts of the
      first-line, blank and header handlers are discarded by the source, so they
      leave no trace here; only their reading of a line does. */
  function Advance(env: Env, p: Phase, total: int, rows: seq<bool>, v: View): (s: Step)
    requires !p.InRows?
    ensures Fits(env, p, rows, s)
  {
    match p
    case Search =>
      (match v.kind
       case First => Next(ExpectSecond, total, rows)
       case Second => SetTotal(v.second, rows)
       case Third => AfterThird(v.third, total, rows)
       case Blank => Next(ExpectHead, total, rows)
       case Head => Next(InRows(Budget(env)), total, rows)
       case Locks => CheckRow(v.row, InRows(Budget(env)), total, rows)
       case Unknown => Next(Search, total, rows))
    case ExpectSecond =>
      SetTotal(if v.isSecond then v.second else Rejected, rows)
    case ExpectThird =>
      if v.isThird then AfterThird(v.third, total, rows) else Next(ExpectBlank, total, rows)
    case ThirdRetry =>
      (match v.retry
       case None => Fail(ShortResources)
       case Some(c) => AfterThird(Resources(c), total, rows))
    case ExpectBlank => Next(ExpectHead, total, rows)
    case ExpectHead => Next(InRows(Budget(env)), total, rows)
  }

  /** The row loop `for _ in range(length + 1)` with `k` iterations to go: a row
      line is checked, and any other line is read and ends the loop. It never
      touches TOTAL and checks at most `k` rows. */
  function RowLoop(k: nat, total: int, rows: seq<bool>, vs: seq<View>): (o: Outcome)
    ensures o.Complete? ==> o.used <= |vs| && o.total == total
    ensures o.Complete? ==> |rows| <= |o.rows| <= |rows| + k && o.rows[..|rows|] == rows
    decreases k
  {
    if k == 0 then Complete(total, rows, 0)
    else if |vs| == 0 then EndOfInput
    else if vs[0].kind != Locks then Complete(total, rows, 1)
    else match vs[0].row
      case Raised(e) => Crashed(RowFailed(e))
      case Checked(ok) => Later(RowLoop(k - 1, total, rows + [ok], vs[1..]), 1)
  }

  /** An outcome `d` lines further into the input. */
  function Later(o: Outcome, d: nat): (r: Outcome)
    ensures r.Complete? <==> o.Complete?
    ensures r.Complete? ==> r.total == o.total && r.rows == o.rows && r.used == o.used + d
    ensures !o.Complete? ==> r == o
  {
    if o.Complete? then Complete(o.total, o.rows, o.used + d) else o
  }

  /** The frame from phase `p` on, over the views of the remaining lines. */
  function Run(env: Env, p: Phase, total: int, rows: seq<bool>, vs: seq<View>): (o: Outcome)
    ensures o.Complete? ==> o.used <= |vs|
    ensures o.Complete? && !p.InRows? ==> o.used > 0
    ensures o.Complete? ==> |rows| <= |o.rows| && o.rows[..|rows|] == rows
    decreases |vs|
  {
    if p.InRows? then RowLoop(p.left, total, rows, vs)
    else if |vs| == 0 then EndOfInput
    else match Advance(env, p, total, rows, vs[0])
      case Fail(f) => Crashed(f)
      case Next(q, t, r) => Later(Run(env, q, t, r, vs[1..]), 1)
  }

  /** A frame whose rows are checked by the given version of `handle_one_line`,
      with TOTAL equal to `total` on entry; a complete frame leaves
      `lines[used..]` unread. */
  function CheckFrame(version: Version, env: Env, total: int, lines: seq<string>): (o: Outcome)
    ensures o.Complete? ==> 0 < o.used <= |lines|
  {
    Run(env, Search, total, [], Views(version, env.maxInode, lines))
  }

  /** `test_one_fram(length, mount_point)` as the source has it, the row check
      included. */
  function TestOneFrame(env: Env, total: int, lines: seq<string>): (o: Outcome)
    ensures o.Complete? ==> 0 < o.used <= |lines|
  {
    CheckFrame(AsWritten, env, total, lines)
  }

  /** The frame with the row check as evidently intended. */
  function CorrectedFrame(env: Env, total: int, lines: seq<string>): (o: Outcome)
    ensures o.Complete? ==> 0 < o.used <= |lines|
  {
    CheckFrame(Corrected, env, total, lines)
  }

  /** What the frame sees in an acquisitions line of ten tokens whose count
      `int()` cannot read. */
  lemma SeeBadSecond(version: Version, maxInode: int, raw: string)
    requires IsSecondLine(RemoveClear(raw))
    requires |Split(RemoveClear(raw))| == 10 && CountPlusOne(Split(RemoveClear(raw))[5]).NotANumber?
    ensures See(version, maxInode, raw).isSecond
    ensures See(version, maxInode, raw).second == NotANumber(Split(RemoveClear(raw))[5])
  {
  }

  /** A first line followed by an acquisitions line whose count `int()` cannot
      read: `handle_second_line` raises `ValueError`, and the frame ends there. */
  lemma SecondLineCrashes(version: Version, env: Env, total: int, l1: string, l2: string, rest: seq<string>)
    requires GetLineType(l1) == First && IsSecondLine(RemoveClear(l2))
    requires |Split(RemoveClear(l2))| == 10 && CountPlusOne(Split(RemoveClear(l2))[5]).NotANumber?
    ensures CheckFrame(version, env, total, [l1, l2] + rest) == Crashed(BadCount(Split(RemoveClear(l2))[5]))
  {
    var lines := [l1, l2] + rest;
    ViewsAt(version, env.maxInode, lines, 0);
    ViewsAt(version, env.maxInode, lines, 1);
    SeeBadSecond(version, env.maxInode, l2);
    BadSecondRun(env, total, Views(version, env.maxInode, lines), Split(RemoveClear(l2))[5]);
  }

  /** The same, over the views: the search meets the first line, and the second
      fails while setting TOTAL. */
  lemma BadSecondRun(env: Env, total: int, vs: seq<View>, token: string)
    requires |vs| >= 2 && vs[0].kind == First && vs[1].isSecond && vs[1].second == NotANumber(token)
    ensures Run(env, Search, total, [], vs) == Crashed(BadCount(token))
  {
    assert vs[1..][0] == vs[1];
  }

  // ---------------------------------------------------------------------------
  // How many rows a frame checks

  lemma {:induction false} RunRowBound(env: Env, p: Phase, total: int, rows: seq<bool>, vs: seq<View>)
    requires Run(env, p, total, rows, vs).Complete?
    ensures |Run(env, p, total, rows, vs).rows| <= |rows| + Allowance(env, p)
    decreases |vs|
  {
    if !p.InRows? {
      var s := Advance(env, p, total, rows, vs[0]);
      RunRowBound(env, s.phase, s.total, s.rows, vs[1..]);
    }
  }

  /** A frame checks at most `length + 2` rows when `length >= 0`: one met while
      searching, then at most `length + 1` from the row loop. */
  lemma FrameRowBound(env: Env, total: int, lines: seq<string>)
    requires TestOneFrame(env, total, lines).Complete?
    ensures |TestOneFrame(env, total, lines).rows| <= Budget(env) + 1
  {
    RunRowBound(env, Search, total, [], Views(AsWritten, env.maxInode, lines));
  }

  // ---------------------------------------------------------------------------
  // The row loop

  /** What a row loop with `k` iterations to go may produce from `vs`: TOTAL left
      alone, a run of `n <= k` leading row lines checked, each verdict being that
      line's check, and then either the iterations used up or one line that is
      not a row read and the loop stopped. */
  predicate RowLoopResult(k: nat, total: int, rows: seq<bool>, vs: seq<View>, o: Outcome) {
    && o.Complete? && o.total == total
    && |rows| <= |o.rows| && o.rows[..|rows|] == rows
    && var n := |o.rows| - |rows|;
       && n <= k && n <= |vs|
       && (forall i :: 0 <= i < n ==> vs[i].kind == Locks && vs[i].row == Checked(o.rows[|rows| + i]))
       && ((n == k && o.used == n) || (n < k && n < |vs| && vs[n].kind != Locks && o.used == n + 1))
  }

  /** The row loop's outcome, when it completes, is a row loop result. */
  lemma {:induction false} RowsPhase(k: nat, total: int, rows: seq<bool>, vs: seq<View>)
    requires RowLoop(k, total, rows, vs).Complete?
    ensures RowLoopResult(k, total, rows, vs, RowLoop(k, total, rows, vs))
    decreases k
  {
    if k > 0 && vs[0].kind == Locks {
      var rows' := rows + [vs[0].row.ok];
      RowLoopStep(k, total, rows, vs);
      RowsPhase(k - 1, total, rows', vs[1..]);
      RowsPhaseStep(k, total, rows, vs, RowLoop(k, total, rows, vs), RowLoop(k - 1, total, rows', vs[1..]));
    }
  }

  /** One checked row in front of a row loop result gives a row loop result
      with one more iteration. */
  lemma RowsPhaseStep(k: nat, total: int, rows: seq<bool>, vs: seq<View>, o: Outcome, o': Outcome)
    requires k > 0 && |vs| > 0 && vs[0].kind == Locks && vs[0].row.Checked?
    requires RowLoopResult(k - 1, total, rows + [vs[0].row.ok], vs[1..], o') && o == Later(o', 1)
    ensures RowLoopResult(k, total, rows, vs, o)
  {
    var ok := vs[0].row.ok;
    var rows' := rows + [ok];
    assert o.rows[..|rows'|] == rows';
    assert o.rows[|rows|] == ok;
    assert o.rows[..|rows|] == rows'[..|rows|];
    var n := |o.rows| - |rows|;
    forall i | 1 <= i < n
      ensures vs[i].kind == Locks && vs[i].row == Checked(o.rows[|rows| + i])
    {
      assert vs[1..][i - 1] == vs[i];
    }
    if n < |vs| {
      assert vs[1..][n - 1] == vs[n];
    }
  }

  /** Lines the frame skips while searching are those classified as unknown. */
  lemma {:induction false} SearchSkipsUnknown(env: Env, total: int, rows: seq<bool>, us: seq<View>, vs: seq<View>)
    requires forall i :: 0 <= i < |us| ==> us[i].kind == Unknown
    ensures var o := Run(env, Search, total, rows, us + vs);
            var o' := Run(env, Search, total, rows, vs);
            if o'.Complete? then o == Complete(o'.total, o'.rows, o'.used + |us|) else o == o'
    decreases |us|
  {
    if |us| > 0 {
      assert (us + vs)[0] == us[0];
      assert (us + vs)[1..] == us[1..] + vs;
      SearchSkipsUnknown(env, total, rows, us[1..], vs);
    } else {
      assert us + vs == vs;
    }
  }

  /** A frame that enters at the column header or at a row never reaches the
      second-line handler, so TOTAL keeps the value an earlier frame left. */
  lemma EntryAtRowsKeepsTotal(env: Env, total: int, lines: seq<string>)
    requires |lines| > 0
    requires GetLineType(lines[0]) == Head || GetLineType(lines[0]) == Locks
    requires TestOneFrame(env, total, lines).Complete?
    ensures TestOneFrame(env, total, lines).total == total
  {
    var vs := Views(AsWritten, env.maxInode, lines);
    ViewsAt(AsWritten, env.maxInode, lines, 0);
    var s := Advance(env, Search, total, [], vs[0]);
    assert s.Next? ==> s.phase == InRows(Budget(env)) && s.total == total;
    if s.Next? {
      RunStep(env, Search, total, [], vs);
    }
  }

  // ---------------------------------------------------------------------------
  // Frames as the monitor prints them

  /** The lines of some printed rows. */
  function RowLines(rs: seq<DataRow>): (ls: seq<string>)
    requires forall i :: 0 <= i < |rs| ==> WellFormed(rs[i])
    ensures |ls| == |rs|
  {
    if |rs| == 0 then [] else [RowLine(rs[0])] + RowLines(rs[1..])
  }

  /** Each row is printed on its own line. */
  lemma {:induction false} RowLinesAt(rs: seq<DataRow>, i: nat)
    requires forall i :: 0 <= i < |rs| ==> WellFormed(rs[i])
    requires i < |rs|
    ensures RowLines(rs)[i] == RowLine(rs[i])
    decreases i
  {
    if i > 0 {
      RowLinesAt(rs[1..], i - 1);
      assert rs[1..][i - 1] == rs[i];
    }
  }

  /** The verdict each printed row should get. */
  function Verdicts(maxInode: int, rs: seq<DataRow>): (vs: seq<bool>)
    requires forall i :: 0 <= i < |rs| ==> WellFormed(rs[i])
    ensures |vs| == |rs|
  {
    if |rs| == 0 then [] else [RowValid(maxInode, rs[0])] + Verdicts(maxInode, rs[1..])
  }

  /** Each row's verdict is its own validity. */
  lemma {:induction false} VerdictsAt(maxInode: int, rs: seq<DataRow>, i: nat)
    requires forall i :: 0 <= i < |rs| ==> WellFormed(rs[i])
    requires i < |rs|
    ensures Verdicts(maxInode, rs)[i] == RowValid(maxInode, rs[i])
    decreases i
  {
    if i > 0 {
      VerdictsAt(maxInode, rs[1..], i - 1);
      assert rs[1..][i - 1] == rs[i];
    }
  }

  /** A printed row is seen as a row. The corrected check gives it its
      validity; the check as written does too unless a counter is negative, and
      then it raises. */
  lemma SeePrintedRow(version: Version, maxInode: int, r: DataRow)
    requires WellFormed(r)
    ensures See(version, maxInode, RowLine(r)).kind == Locks
    ensures version.Corrected? || NoNegativeCounter(r) ==>
              See(version, maxInode, RowLine(r)).row == Checked(RowValid(maxInode, r))
    ensures version.AsWritten? && !NoNegativeCounter(r) ==>
              See(version, maxInode, RowLine(r)).row == Raised(UnboundRawLine)
  {
    RowLineLacks(r, Esc);
    RemoveClearPlain(RowLine(r));
    RowLineIsLocks(r);
    RowLineCheck(maxInode, r);
    RowLineAsWritten(maxInode, r);
  }

  /** The first `p` printed rows are seen as rows carrying their own verdicts,
      when the check cannot raise on them. */
  lemma PrintedRowViews(version: Version, maxInode: int, rs: seq<DataRow>, p: nat)
    requires forall i :: 0 <= i < |rs| ==> WellFormed(rs[i])
    requires p <= |rs|
    requires version.AsWritten? ==> forall i :: 0 <= i < p ==> NoNegativeCounter(rs[i])
    ensures forall i :: 0 <= i < p ==>
      Views(version, maxInode, RowLines(rs))[i].kind == Locks &&
      Views(version, maxInode, RowLines(rs))[i].row == Checked(Verdicts(maxInode, rs)[i])
  {
    forall i | 0 <= i < p
      ensures Views(version, maxInode, RowLines(rs))[i].kind == Locks
      ensures Views(version, maxInode, RowLines(rs))[i].row == Checked(Verdicts(maxInode, rs)[i])
    {
      ViewsAt(version, maxInode, RowLines(rs), i);
      RowLinesAt(rs, i);
      VerdictsAt(maxInode, rs, i);
      SeePrintedRow(version, maxInode, rs[i]);
    }
  }

  /** The row loop over a run of lines that are all rows: each gets its own
      verdict, and the loop goes on with what follows them. */
  lemma {:induction false} RowsThen(k: nat, total: int, rows: seq<bool>,
                                    vs: seq<View>, oks: seq<bool>, tail: seq<View>)
    requires |oks| == |vs| <= k
    requires forall i :: 0 <= i < |vs| ==> vs[i].kind == Locks && vs[i].row == Checked(oks[i])
    ensures RowLoop(k, total, rows, vs + tail)
         == Later(RowLoop(k - |vs|, total, rows + oks, tail), |vs|)
    decreases |vs|
  {
    if |vs| == 0 {
      assert vs + tail == tail;
      assert rows + oks == rows;
    } else {
      var ws := vs + tail;
      var y := RowLoop(k - 1, total, rows + [oks[0]], ws[1..]);
      var z := RowLoop(k - |vs|, total, rows + oks, tail);
      assert RowLoop(k, total, rows, ws) == Later(y, 1) by {
        assert ws[0] == vs[0];
        RowLoopStep(k, total, rows, ws);
      }
      assert y == Later(z, |vs| - 1) by {
        assert ws[1..] == vs[1..] + tail;
        assert rows + [oks[0]] + oks[1..] == rows + oks;
        RowsTail(vs, oks);
        RowsThen(k - 1, total, rows + [oks[0]], vs[1..], oks[1..], tail);
      }
      LaterLater(RowLoop(k, total, rows, ws), y, z, |vs| - 1);
    }
  }

  /** One checked row line in the row loop. */
  lemma RowLoopStep(k: nat, total: int, rows: seq<bool>, ws: seq<View>)
    requires k > 0 && |ws| > 0 && ws[0].kind == Locks && ws[0].row.Checked?
    ensures RowLoop(k, total, rows, ws) == Later(RowLoop(k - 1, total, rows + [ws[0].row.ok], ws[1..]), 1)
  {
  }

  lemma LaterLater(x: Outcome, y: Outcome, z: Outcome, d: nat)
    requires x == Later(y, 1) && y == Later(z, d)
    ensures x == Later(z, d + 1)
  {
  }

  /** The row loop over lines that are all rows, followed by a line that is not
      a row when iterations remain: each row gets its own verdict, and the loop
      stops on the line after them. */
  lemma RowsOfViews(k: nat, total: int, vs: seq<View>, oks: seq<bool>, tail: seq<View>)
    requires |oks| == |vs| <= k
    requires forall i :: 0 <= i < |vs| ==> vs[i].kind == Locks && vs[i].row == Checked(oks[i])
    requires |vs| < k ==> |tail| > 0 && tail[0].kind != Locks
    ensures RowLoop(k, total, [], vs + tail)
         == Complete(total, oks, if |vs| < k then |vs| + 1 else |vs|)
  {
    RowsThen(k, total, [], vs, oks, tail);
    assert [] + oks == oks;
  }

  /** A row the check raises on, met with iterations left after a run of
      checked rows, ends the frame with the exception. */
  lemma RowsThenRaise(k: nat, total: int, rows: seq<bool>,
                      vs: seq<View>, oks: seq<bool>, tail: seq<View>, e: RowError)
    requires |oks| == |vs| < k
    requires forall i :: 0 <= i < |vs| ==> vs[i].kind == Locks && vs[i].row == Checked(oks[i])
    requires |tail| > 0 && tail[0].kind == Locks && tail[0].row == Raised(e)
    ensures RowLoop(k, total, rows, vs + tail) == Crashed(RowFailed(e))
  {
    RowsThen(k, total, rows, vs, oks, tail);
  }

  /** Dropping the first of a run of checked rows. */
  lemma RowsTail(vs: seq<View>, oks: seq<bool>)
    requires |oks| == |vs| > 0
    requires forall i :: 0 <= i < |vs| ==> vs[i].kind == Locks && vs[i].row == Checked(oks[i])
    ensures forall i :: 0 <= i < |vs| - 1 ==> vs[1..][i].kind == Locks && vs[1..][i].row == Checked(oks[1..][i])
  {
    forall i | 0 <= i < |vs| - 1
      ensures vs[1..][i].kind == Locks && vs[1..][i].row == Checked(oks[1..][i])
    {
      assert vs[1..][i] == vs[i + 1];
    }
  }

  /** The number of leading rows with no negative counter. */
  function CleanRows(rs: seq<DataRow>): (j: nat)
    requires forall i :: 0 <= i < |rs| ==> WellFormed(rs[i])
    ensures j <= |rs|
    ensures forall i :: 0 <= i < j ==> NoNegativeCounter(rs[i])
    ensures j < |rs| ==> !NoNegativeCounter(rs[j])
  {
    if |rs| == 0 || !NoNegativeCounter(rs[0]) then 0
    else 1 + CleanRows(rs[1..])
  }

  /** The three header lines of a frame as the monitor prints them: anything
      naming the tool, ten columns whose sixth is the printed acquisition count
      `n`, and at least four columns whose fourth is the printed resource count. */
  predicate PrintedHeader(l1: string, t2: seq<string>, n: nat, t3: seq<string>, m: nat) {
    && GetLineType(l1) == First
    && AllWords(t2) && |t2| == 10 && t2[5] == Grouped(n)
    && Esc !in Join(t2) && IsSecondLine(Join(t2))
    && AllWords(t3) && |t3| >= 4 && t3[3] == Grouped(m)
    && Esc !in Join(t3) && IsThirdLine(Join(t3))
  }

  lemma HeaderViews(version: Version, maxInode: int, l1: string, t2: seq<string>, n: nat,
                    t3: seq<string>, m: nat, l4: string, l5: string)
    requires PrintedHeader(l1, t2, n, t3, m)
    ensures HeaderSeen(Views(version, maxInode, [l1, Join(t2), Join(t3), l4, l5]), n, m)
  {
    var head := [l1, Join(t2), Join(t3), l4, l5];
    ViewsAt(version, maxInode, head, 0);
    ViewsAt(version, maxInode, head, 1);
    ViewsAt(version, maxInode, head, 2);
    SeeHeader(version, maxInode, l1, t2, n, t3, m);
  }

  lemma SeeHeader(version: Version, maxInode: int, l1: string, t2: seq<string>, n: nat, t3: seq<string>, m: nat)
    requires PrintedHeader(l1, t2, n, t3, m)
    ensures See(version, maxInode, l1).kind == First
    ensures See(version, maxInode, Join(t2)).isSecond
    ensures See(version, maxInode, Join(t2)).second == Parsed(n + 1)
    ensures See(version, maxInode, Join(t3)).isThird
    ensures See(version, maxInode, Join(t3)).third == Resources(Parsed(m + 1))
  {
    RemoveClearPlain(Join(t2));
    RemoveClearPlain(Join(t3));
    SecondLineTokens(t2, n);
    ThirdLineTokens(t3, m);
  }

  /** One line read in a reading phase that does not fail. */
  lemma RunStep(env: Env, p: Phase, total: int, rows: seq<bool>, vs: seq<View>)
    requires !p.InRows? && |vs| > 0 && Advance(env, p, total, rows, vs[0]).Next?
    ensures var s := Advance(env, p, total, rows, vs[0]);
            Run(env, p, total, rows, vs) == Later(Run(env, s.phase, s.total, s.rows, vs[1..]), 1)
  {
  }

  /** The views of five header lines that take the frame to its rows: a first
      line, a second line giving the acquisition count `n + 1` and a third line
      giving the resource count `m + 1`. */
  predicate HeaderSeen(h: seq<View>, n: nat, m: nat) {
    |h| == 5 &&
    (h[0].kind, h[1].isSecond, h[1].second, h[2].isThird, h[2].third)
    == (First, true, Parsed(n + 1), true, Resources(Parsed(m + 1)))
  }

  /** The five header lines take a searching frame to the row loop with TOTAL set
      from the acquisition count; the UUID is never compared, because the source
      discards the first-line verdict. */
  lemma HeaderRun(env: Env, total: int, h: seq<View>, n: nat, m: nat, more: seq<View>)
    requires HeaderSeen(h, n, m)
    ensures Run(env, Search, total, [], h + more)
         == Later(Run(env, InRows(Budget(env)), n + 1, [], more), 5)
  {
    var vs := h + more;
    var o := Run(env, InRows(Budget(env)), n + 1, [], more);
    assert vs[4..][1..] == more;
    RunStep(env, ExpectHead, n + 1, [], vs[4..]);
    assert vs[3..][1..] == vs[4..] && vs[3..][0] == h[3];
    RunStep(env, ExpectBlank, n + 1, [], vs[3..]);
    assert vs[2..][1..] == vs[3..] && vs[2..][0] == h[2];
    RunStep(env, ExpectThird, n + 1, [], vs[2..]);
    assert vs[1..][1..] == vs[2..] && vs[1..][0] == h[1];
    RunStep(env, ExpectSecond, total, [], vs[1..]);
    assert vs[0] == h[0];
    RunStep(env, Search, total, [], vs);
  }

  /** Every row has no negative counter. */
  predicate AllClean(rs: seq<DataRow>)
    requires forall i :: 0 <= i < |rs| ==> WellFormed(rs[i])
  {
    forall i :: 0 <= i < |rs| ==> NoNegativeCounter(rs[i])
  }

  /** The lines of a frame as the monitor prints it: the five header lines, the
      rows, and what follows. */
  function PrintedLines(l1: string, t2: seq<string>, t3: seq<string>, l4: string, l5: string,
                        rs: seq<DataRow>, tail: seq<string>): (ls: seq<string>)
    requires forall i :: 0 <= i < |rs| ==> WellFormed(rs[i])
    ensures |ls| == 5 + |rs| + |tail|
  {
    [l1, Join(t2), Join(t3), l4, l5] + RowLines(rs) + tail
  }

  /** A whole frame as the monitor prints it, its rows followed by a line that is
      not a row when the loop has iterations left. With no negative counter it
      reads to TOTAL `n + 1` and one verdict per row, each the row's validity,
      whatever the UUID. A negative counter makes the row check raise
      `UnboundLocalError`, which ends the frame. */
  lemma PrintedFrame(env: Env, total: int, l1: string, t2: seq<string>, n: nat, t3: seq<string>, m: nat,
                     l4: string, l5: string, rs: seq<DataRow>, tail: seq<string>)
    requires PrintedHeader(l1, t2, n, t3, m)
    requires forall i :: 0 <= i < |rs| ==> WellFormed(rs[i])
    requires |rs| <= Budget(env)
    requires |rs| < Budget(env) ==> |tail| > 0 && !IsRow(tail[0])
    ensures AllClean(rs) ==>
      TestOneFrame(env, total, PrintedLines(l1, t2, t3, l4, l5, rs, tail))
      == Complete(n + 1, Verdicts(env.maxInode, rs), 5 + RowsRead(Budget(env), |rs|))
    ensures !AllClean(rs) ==>
      TestOneFrame(env, total, PrintedLines(l1, t2, t3, l4, l5, rs, tail)) == Crashed(RowFailed(UnboundRawLine))
  {
    if AllClean(rs) {
      HeaderViews(AsWritten, env.maxInode, l1, t2, n, t3, m, l4, l5);
      PrintedFrameChecked(AsWritten, env, total, l1, t2, n, t3, m, l4, l5, rs, tail);
    } else {
      PrintedFrameRaises(env, total, l1, t2, n, t3, m, l4, l5, rs, tail);
    }
  }

  /** The frame with the corrected row check reads every printed frame to TOTAL
      `n + 1` and one verdict per row, each the row's validity. */
  lemma CorrectedPrintedFrame(env: Env, total: int, l1: string, t2: seq<string>, n: nat, t3: seq<string>, m: nat,
                              l4: string, l5: string, rs: seq<DataRow>, tail: seq<string>)
    requires PrintedHeader(l1, t2, n, t3, m)
    requires forall i :: 0 <= i < |rs| ==> WellFormed(rs[i])
    requires |rs| <= Budget(env)
    requires |rs| < Budget(env) ==> |tail| > 0 && !IsRow(tail[0])
    ensures CorrectedFrame(env, total, PrintedLines(l1, t2, t3, l4, l5, rs, tail))
         == Complete(n + 1, Verdicts(env.maxInode, rs), 5 + RowsRead(Budget(env), |rs|))
  {
    HeaderViews(Corrected, env.maxInode, l1, t2, n, t3, m, l4, l5);
    PrintedFrameChecked(Corrected, env, total, l1, t2, n, t3, m, l4, l5, rs, tail);
  }

  lemma PrintedFrameChecked(version: Version, env: Env, total: int, l1: string, t2: seq<string>, n: nat,
                            t3: seq<string>, m: nat, l4: string, l5: string, rs: seq<DataRow>, tail: seq<string>)
    requires HeaderSeen(Views(version, env.maxInode, [l1, Join(t2), Join(t3), l4, l5]), n, m)
    requires forall i :: 0 <= i < |rs| ==> WellFormed(rs[i])
    requires |rs| <= Budget(env)
    requires |rs| < Budget(env) ==> |tail| > 0 && !IsRow(tail[0])
    requires version.AsWritten? ==> AllClean(rs)
    ensures CheckFrame(version, env, total, PrintedLines(l1, t2, t3, l4, l5, rs, tail))
         == Complete(n + 1, Verdicts(env.maxInode, rs), 5 + RowsRead(Budget(env), |rs|))
  {
    PrintedRows(version, env.maxInode, Budget(env), n + 1, rs, tail);
    PrintedHeaderComplete(version, env, total, l1, t2, n, t3, m, l4, l5, rs, tail,
                          Verdicts(env.maxInode, rs), RowsRead(Budget(env), |rs|));
  }

  /** `PrintedHeaderRun` for a row loop that completes. */
  lemma PrintedHeaderComplete(version: Version, env: Env, total: int, l1: string, t2: seq<string>, n: nat,
                              t3: seq<string>, m: nat, l4: string, l5: string, rs: seq<DataRow>, tail: seq<string>,
                              oks: seq<bool>, used: nat)
    requires HeaderSeen(Views(version, env.maxInode, [l1, Join(t2), Join(t3), l4, l5]), n, m)
    requires forall i :: 0 <= i < |rs| ==> WellFormed(rs[i])
    requires RowLoop(Budget(env), n + 1, [],
                     Views(version, env.maxInode, RowLines(rs)) + Views(version, env.maxInode, tail))
             == Complete(n + 1, oks, used)
    ensures CheckFrame(version, env, total, PrintedLines(l1, t2, t3, l4, l5, rs, tail))
         == Complete(n + 1, oks, 5 + used)
  {
    PrintedHeaderRun(version, env, total, l1, t2, n, t3, m, l4, l5, rs, tail, Complete(n + 1, oks, used));
  }

  /** The lines the row loop reads over `p` printed rows with `k` iterations:
      the rows, and the line it stops on when iterations remain. */
  function RowsRead(k: nat, p: nat): (used: nat)
  {
    if p < k then p + 1 else p
  }

  /** The row loop over printed rows whose check cannot raise gives each its
      validity, and stops on the line after them when iterations remain. */
  lemma PrintedRows(version: Version, maxInode: int, k: nat, total: int, rs: seq<DataRow>, tail: seq<string>)
    requires forall i :: 0 <= i < |rs| ==> WellFormed(rs[i])
    requires |rs| <= k
    requires |rs| < k ==> |tail| > 0 && !IsRow(tail[0])
    requires version.AsWritten? ==> AllClean(rs)
    ensures RowLoop(k, total, [], Views(version, maxInode, RowLines(rs)) + Views(version, maxInode, tail))
         == Complete(total, Verdicts(maxInode, rs), RowsRead(k, |rs|))
  {
    var body := Views(version, maxInode, RowLines(rs));
    var rest := Views(version, maxInode, tail);
    var oks := Verdicts(maxInode, rs);
    PrintedRowViews(version, maxInode, rs, |rs|);
    if |rs| < k {
      ViewsAt(version, maxInode, tail, 0);
    }
    RowsOfViews(k, total, body, oks, rest);
  }

  /** As written, the first printed row with a negative counter raises, after
      the clean rows before it are checked. */
  lemma PrintedFrameRaises(env: Env, total: int, l1: string, t2: seq<string>, n: nat, t3: seq<string>, m: nat,
                           l4: string, l5: string, rs: seq<DataRow>, tail: seq<string>)
    requires PrintedHeader(l1, t2, n, t3, m)
    requires forall i :: 0 <= i < |rs| ==> WellFormed(rs[i])
    requires |rs| <= Budget(env)
    requires !AllClean(rs)
    ensures TestOneFrame(env, total, PrintedLines(l1, t2, t3, l4, l5, rs, tail))
         == Crashed(RowFailed(UnboundRawLine))
  {
    var mi := env.maxInode;
    PrintedRowsRaise(mi, Budget(env), n + 1, rs, tail);
    HeaderViews(AsWritten, mi, l1, t2, n, t3, m, l4, l5);
    PrintedHeaderRun(AsWritten, env, total, l1, t2, n, t3, m, l4, l5, rs, tail, Crashed(RowFailed(UnboundRawLine)));
  }

  /** As written, the row loop over printed rows raises at the first row with a
      negative counter. */
  lemma PrintedRowsRaise(maxInode: int, k: nat, total: int, rs: seq<DataRow>, tail: seq<string>)
    requires forall i :: 0 <= i < |rs| ==> WellFormed(rs[i])
    requires |rs| <= k && !AllClean(rs)
    ensures RowLoop(k, total, [], Views(AsWritten, maxInode, RowLines(rs)) + Views(AsWritten, maxInode, tail))
         == Crashed(RowFailed(UnboundRawLine))
  {
    var j := CleanRows(rs);
    PrintedRowViews(AsWritten, maxInode, rs, j);
    PrintedRowRaises(maxInode, rs, j);
    RaiseAfter(k, total, Views(AsWritten, maxInode, RowLines(rs)), Views(AsWritten, maxInode, tail),
               Verdicts(maxInode, rs)[..j], j);
  }

  /** As written, a printed row with a negative counter is seen as a row whose
      check raises. */
  lemma PrintedRowRaises(maxInode: int, rs: seq<DataRow>, j: nat)
    requires forall i :: 0 <= i < |rs| ==> WellFormed(rs[i])
    requires j < |rs| && !NoNegativeCounter(rs[j])
    ensures Views(AsWritten, maxInode, RowLines(rs))[j].kind == Locks
    ensures Views(AsWritten, maxInode, RowLines(rs))[j].row == Raised(UnboundRawLine)
  {
    ViewsAt(AsWritten, maxInode, RowLines(rs), j);
    RowLinesAt(rs, j);
    SeePrintedRow(AsWritten, maxInode, rs[j]);
  }

  /** A row loop over `body + rest` whose first `j` views are checked rows and
      whose next one raises. */
  lemma RaiseAfter(k: nat, total: int, body: seq<View>, rest: seq<View>, oks: seq<bool>, j: nat)
    requires j < |body| && j < k && |oks| == j
    requires forall i :: 0 <= i < j ==> body[i].kind == Locks && body[i].row == Checked(oks[i])
    requires body[j].kind == Locks && body[j].row == Raised(UnboundRawLine)
    ensures RowLoop(k, total, [], body + rest) == Crashed(RowFailed(UnboundRawLine))
  {
    assert body + rest == body[..j] + (body[j..] + rest);
    assert (body[j..] + rest)[0] == body[j];
    RowsThenRaise(k, total, [], body[..j], oks, body[j..] + rest, UnboundRawLine);
  }

  /** The header lines of a printed frame take it into the row loop over the
      rest of the lines, TOTAL set from the acquisition count. */
  lemma PrintedHeaderRun(version: Version, env: Env, total: int, l1: string, t2: seq<string>, n: nat,
                         t3: seq<string>, m: nat, l4: string, l5: string, rs: seq<DataRow>, tail: seq<string>,
                         o: Outcome)
    requires HeaderSeen(Views(version, env.maxInode, [l1, Join(t2), Join(t3), l4, l5]), n, m)
    requires forall i :: 0 <= i < |rs| ==> WellFormed(rs[i])
    requires RowLoop(Budget(env), n + 1, [],
                     Views(version, env.maxInode, RowLines(rs)) + Views(version, env.maxInode, tail)) == o
    ensures CheckFrame(version, env, total, PrintedLines(l1, t2, t3, l4, l5, rs, tail)) == Later(o, 5)
  {
    var mi := env.maxInode;
    var head := [l1, Join(t2), Join(t3), l4, l5];
    var h := Views(version, mi, head);
    var body := Views(version, mi, RowLines(rs));
    var rest := Views(version, mi, tail);
    FrameViews(version, mi, head, RowLines(rs), tail);
    HeaderRun(env, total, h, n, m, body + rest);
  }

  lemma FrameViews(version: Version, maxInode: int, a: seq<string>, b: seq<string>, c: seq<string>)
    ensures Views(version, maxInode, a + b + c)
         == Views(version, maxInode, a) + (Views(version, maxInode, b) + Views(version, maxInode, c))
  {
    var va, vb, vc := Views(version, maxInode, a), Views(version, maxInode, b), Views(version, maxInode, c);
    ViewsAppend(version, maxInode, a + b, c);
    ViewsAppend(version, maxInode, a, b);
    AppendAssociates(va, vb, vc);
  }

  predicate IsRow(raw: string) {
    GetLineType(raw) == Locks
  }
}

=== FILE: handlers.dfy ===
/** The per-line handlers of the frame checker: the three header lines, the
    column header and the lock rows (`handle_first_line`, `handle_second_line`,
    `handle_third_line`, `handle_head`, `handle_one_line` with `not_negative`). */
module Handlers {
  import opened Options
  import opened Text
  import opened Numbers
  import opened Lines

  // ---------------------------------------------------------------------------
  // Header lines

  /** `handle_first_line(uuid, line)` with the line supplied: the line must have
      five tokens, the last being the volume's UUID. */
  function HandleFirst(uuid: string, line: string): (ok: bool)
    ensures ok <==> |Split(line)| == 5 && Split(line)[4] == uuid
  {
    var ts := Split(line);
    if |ts| != 5 then false
    else if uuid != ts[4] then false
    else true
  }

  /** What a count-reading handler yields: the source's `False`, a count, or the
      `ValueError` that `int()` raises on the named token. */
  datatype Count = Rejected | Parsed(n: int) | NotANumber(token: string)

  /** `int(token.replace(",", "")) + 1`. */
  function CountPlusOne(token: string): (c: Count)
    ensures !c.Rejected?
    ensures c.NotANumber? ==> c.token == token && ParseInt(RemoveChar(token, ',')).None?
    ensures c.Parsed? ==> ParseInt(RemoveChar(token, ',')) == Some(c.n - 1)
  {
    match ParseInt(RemoveChar(token, ','))
    case None => NotANumber(token)
    case Some(v) => Parsed(v + 1)
  }

  /** `handle_second_line(line)` with the line supplied: ten tokens, and the sixth,
      the acquisitions count, read with its separators removed. */
  function HandleSecond(line: string): (c: Count)
    ensures c.Rejected? <==> |Split(line)| != 10
    ensures !c.Rejected? ==> |Split(line)| == 10 && c == CountPlusOne(Split(line)[5])
  {
    var ts := Split(line);
    if |ts| != 10 then Rejected else CountPlusOne(ts[5])
  }

  /** The outcome of the first look at the resources line: either the count, or a
      request for one more line because there were fewer than four tokens. */
  datatype ThirdStep = ReadAnother | Resources(count: Count)

  /** `handle_third_line(line)` with the line supplied, up to the point where it
      may read another line. */
  function HandleThird(line: string): (t: ThirdStep)
    ensures t.ReadAnother? <==> |Split(ReplaceChar(line, '\n', ' '))| < 4
    ensures t.Resources? ==> !t.count.Rejected?
    ensures t.Resources? ==> t.count == CountPlusOne(Split(ReplaceChar(line, '\n', ' '))[3])
  {
    var ts := Split(ReplaceChar(line, '\n', ' '));
    if |ts| < 4 then ReadAnother else Resources(CountPlusOne(ts[3]))
  }

  /** The rest of `handle_third_line` on the extra line it reads (already stripped
      of clear sequences): with fewer than four tokens `line[3]` raises
      `IndexError`, modelled as `None`. */
  function HandleThirdRetry(line: string): (r: Option<Count>)
    ensures r.None? <==> |Split(line)| < 4
    ensures r.Some? ==> !r.value.Rejected? && r.value == CountPlusOne(Split(line)[3])
  {
    var ts := Split(line);
    if |ts| < 4 then None else Some(CountPlusOne(ts[3]))
  }

  // ---------------------------------------------------------------------------
  // Column header

  /** The column names the monitor prints, in order. */
  const Columns: seq<string> :=
    ["TYPE", "INO", "EXNUM", "EXTIME(us)", "EXAVG(us)", "PRNUM", "PRTIME(us)", "PRAVG(us)"]

  /** The header the checker compares with once spaces are removed: the column
      names run together (CanonicalHeadLiteral spells it out). */
  const CanonicalHead: string := Concat(Columns)

  /** The column names run together are exactly the literal the checker compares
      the space-free header with. */
  lemma CanonicalHeadLiteral()
    ensures CanonicalHead == "TYPEINOEXNUMEXTIME(us)EXAVG(us)PRNUMPRTIME(us)PRAVG(us)"
  {
    HeadPrefix(8);
    assert Columns[..8] == Columns;
  }

  /** The header as it grows one column at a time, left to right. */
  const HeadPrefixes: seq<string> :=
    ["", "TYPE", "TYPEINO", "TYPEINOEXNUM", "TYPEINOEXNUMEXTIME(us)",
     "TYPEINOEXNUMEXTIME(us)EXAVG(us)", "TYPEINOEXNUMEXTIME(us)EXAVG(us)PRNUM",
     "TYPEINOEXNUMEXTIME(us)EXAVG(us)PRNUMPRTIME(us)",
     "TYPEINOEXNUMEXTIME(us)EXAVG(us)PRNUMPRTIME(us)PRAVG(us)"]

  /** The first k column names run together. */
  lemma {:induction false} HeadPrefix(k: nat)
    requires k <= |Columns|
    ensures Concat(Columns[..k]) == HeadPrefixes[k]
  {
    if k == 0 {
      assert Columns[..0] == [];
    } else {
      HeadPrefix(k - 1);
      PrefixGrows(k);
      HeadColumn(k, HeadPrefixes[k - 1], HeadPrefixes[k]);
    }
  }

  /** Each prefix is the one before it with the next column name appended. */
  lemma PrefixGrows(k: nat)
    requires 0 < k <= |Columns|
    ensures HeadPrefixes[k - 1] + Columns[k - 1] == HeadPrefixes[k]
  {
    if k <= 4 {
      EarlyPrefixGrows(k);
    } else {
      LatePrefixGrows(k);
    }
  }

  lemma EarlyPrefixGrows(k: nat)
    requires 0 < k <= 4
    ensures HeadPrefixes[k - 1] + Columns[k - 1] == HeadPrefixes[k]
  {
    if k == 1 {
      assert "" + "TYPE" == "TYPE";
    } else if k == 2 {
      assert "TYPE" + "INO" == "TYPEINO";
    } else if k == 3 {
      assert "TYPEINO" + "EXNUM" == "TYPEINOEXNUM";
    } else {
      assert "TYPEINOEXNUM" + "EXTIME(us)" == "TYPEINOEXNUMEXTIME(us)";
    }
  }

  lemma LatePrefixGrows(k: nat)
    requires 4 < k <= |Columns|
    ensures HeadPrefixes[k - 1] + Columns[k - 1] == HeadPrefixes[k]
  {
    if k == 5 {
      assert "TYPEINOEXNUMEXTIME(us)" + "EXAVG(us)" == "TYPEINOEXNUMEXTIME(us)EXAVG(us)";
    } else if k == 6 {
      assert "TYPEINOEXNUMEXTIME(us)EXAVG(us)" + "PRNUM"
          == "TYPEINOEXNUMEXTIME(us)EXAVG(us)PRNUM";
    } else if k == 7 {
      assert "TYPEINOEXNUMEXTIME(us)EXAVG(us)PRNUM" + "PRTIME(us)"
          == "TYPEINOEXNUMEXTIME(us)EXAVG(us)PRNUMPRTIME(us)";
    } else {
      assert "TYPEINOEXNUMEXTIME(us)EXAVG(us)PRNUMPRTIME(us)" + "PRAVG(us)"
          == "TYPEINOEXNUMEXTIME(us)EXAVG(us)PRNUMPRTIME(us)PRAVG(us)";
    }
  }

  /** One more column name appended to the names before it. */
  lemma HeadColumn(i: nat, before: string, after: string)
    requires 0 < i <= |Columns|
    requires Concat(Columns[..i - 1]) == before && before + Columns[i - 1] == after
    ensures Concat(Columns[..i]) == after
  {
    ConcatSnoc(Columns[..i - 1], Columns[i - 1]);
    assert Columns[..i - 1] + [Columns[i - 1]] == Columns[..i];
  }

  lemma CanonicalNonEmpty()
    ensures |CanonicalHead| > 0
  {
    assert Columns[0] == "TYPE";
  }

  /** `handle_head(line)` with a non-empty line supplied: once stripped the line
      must be non-empty and, with its spaces removed, equal the canonical header.
      (An empty supplied line makes the source read a line of its own; that path
      is `HandleHeadRead`.) */
  function HandleHead(line: string): (ok: bool)
    requires |line| > 0
    ensures ok <==> RemoveChar(Strip(line), ' ') == CanonicalHead
  {
    CanonicalNonEmpty();
    var t := Strip(line);
    if t == [] then false
    else RemoveChar(t, ' ') == CanonicalHead
  }

  /** `handle_head()` reading its own line: a line without "TIME(us)" is refused
      before it is compared. */
  function HandleHeadRead(line: string): (ok: bool)
    ensures ok <==> IsHeadLine(line) && RemoveChar(Strip(line), ' ') == CanonicalHead
  {
    if !IsHeadLine(line) then false else HandleHead(line)
  }

  // ---------------------------------------------------------------------------
  // Header lines rendered from tokens

  /** The first line is accepted exactly when it has five tokens ending with the
      UUID. */
  lemma FirstLineTokens(uuid: string, ts: seq<string>)
    requires AllWords(ts)
    ensures HandleFirst(uuid, Join(ts)) <==> |ts| == 5 && ts[4] == uuid
  {
    SplitJoin(ts);
  }

  /** A second line of ten tokens whose sixth is a printed count `n` yields
      `n + 1`; any other width is refused. */
  lemma SecondLineTokens(ts: seq<string>, n: nat)
    requires AllWords(ts)
    requires |ts| == 10 ==> ts[5] == Grouped(n)
    ensures HandleSecond(Join(ts)) == if |ts| == 10 then Parsed(n + 1) else Rejected
  {
    var line := Join(ts);
    SplitJoin(ts);
    assert Split(line) == ts;
    if |ts| == 10 {
      CountOfGrouped(ts[5], n);
    }
  }

  lemma CountOfGrouped(t: string, n: nat)
    requires t == Grouped(n)
    ensures CountPlusOne(t) == Parsed(n + 1)
  {
    ParseGrouped(n);
  }

  /** The monitor's count "99" makes TOTAL 100. */
  lemma SecondLineNinetyNine(ts: seq<string>)
    requires AllWords(ts) && |ts| == 10 && ts[5] == "99"
    ensures HandleSecond(Join(ts)) == Parsed(100)
  {
    assert Grouped(99) == Decimal(99) == Decimal(9) + [DigitChar(9)];
    SecondLineTokens(ts, 99);
  }

  lemma NoNewlineInJoin(ts: seq<string>)
    requires AllWords(ts)
    ensures '\n' !in Join(ts)
  {
    forall i | 0 <= i < |ts|
      ensures '\n' !in ts[i]
    {
      assert IsWord(ts[i]);
    }
    NotInJoin(ts, '\n');
  }

  /** A resources line of at least four tokens whose fourth is a printed count `m`
      yields `m + 1`; a shorter one asks for another line. */
  lemma ThirdLineTokens(ts: seq<string>, m: nat)
    requires AllWords(ts)
    requires |ts| >= 4 ==> ts[3] == Grouped(m)
    ensures HandleThird(Join(ts)) == if |ts| >= 4 then Resources(Parsed(m + 1)) else ReadAnother
  {
    NoNewlineInJoin(ts);
    var line := Join(ts);
    assert ReplaceChar(line, '\n', ' ') == line;
    SplitJoin(ts);
    if |ts| >= 4 {
      ParseGrouped(m);
    }
  }

  /** The extra line read for a short resources line: four or more tokens whose
      fourth is a printed count `m` yield `m + 1`; fewer make `line[3]` raise. */
  lemma RetryLineTokens(ts: seq<string>, m: nat)
    requires AllWords(ts)
    requires |ts| >= 4 ==> ts[3] == Grouped(m)
    ensures HandleThirdRetry(Join(ts)) == if |ts| >= 4 then Some(Parsed(m + 1)) else None
  {
    SplitJoin(ts);
    if |ts| >= 4 {
      ParseGrouped(m);
    }
  }

  // ---------------------------------------------------------------------------
  // Column header

  function Concat(ts: seq<string>): (r: string)
  {
    if |ts| == 0 then "" else ts[0] + Concat(ts[1..])
  }

  /** A word appended to the list is appended to the run-together words. */
  lemma {:induction false} ConcatSnoc(ts: seq<string>, w: string)
    ensures Concat(ts + [w]) == Concat(ts) + w
    decreases |ts|
  {
    if |ts| == 0 {
      assert ts + [w] == [w];
      assert Concat([w]) == w + Concat([]);
    } else {
      assert (ts + [w])[1..] == ts[1..] + [w];
      ConcatSnoc(ts[1..], w);
      AppendAssociates(ts[0], Concat(ts[1..]), w);
    }
  }

  /** Dropping the spaces of words joined by spaces concatenates the words. */
  lemma {:induction false} RemoveSpacesOfJoin(ts: seq<string>)
    requires forall i :: 0 <= i < |ts| ==> ' ' !in ts[i]
    ensures RemoveChar(Join(ts), ' ') == Concat(ts)
    decreases |ts|
  {
    if |ts| == 1 {
      assert Concat(ts) == ts[0] + "";
    } else if |ts| > 1 {
      RemoveSpacesOfJoin(ts[1..]);
      RemoveCharAppend(ts[0] + " ", Join(ts[1..]), ' ');
      RemoveCharAppend(ts[0], " ", ' ');
      assert RemoveChar(" ", ' ') == [];
    }
  }

  /** Any column layout whose words run together into the canonical header, one
      of them holding "TIME(us)", is classified as the column header and accepted:
      the header's characters are none of 'o', 'a', 'r', so none of the earlier
      markers can occur. */
  lemma {:induction false} HeadOfColumns(ts: seq<string>, k: int)
    requires AllWords(ts) && |ts| > 0
    requires Concat(ts) == CanonicalHead
    requires 0 <= k < |ts| && Contains(ts[k], "TIME(us)")
    ensures Classify(Join(ts)) == Head
    ensures HandleHead(Join(ts))
  {
    var line := Join(ts);
    forall i | 0 <= i < |ts|
      ensures ' ' !in ts[i]
    {
      assert IsWord(ts[i]);
    }
    JoinIsStripped(ts);
    RemoveSpacesOfJoin(ts);
    assert RemoveChar(line, ' ') == CanonicalHead;
    CanonicalLacksMarkers();
    assert 'o' !in line && 'a' !in line && 'r' !in line;
    MissingCharNotContained(line, "o2locktop", 0);
    MissingCharNotContained(line, "acquisitions", 0);
    MissingCharNotContained(line, "resources", 0);
    ContainsInJoin(ts, k, "TIME(us)");
  }

  /** Every character of a concatenation comes from one of its parts. */
  lemma {:induction false} ConcatChars(ts: seq<string>, c: char)
    requires forall i :: 0 <= i < |ts| ==> c !in ts[i]
    ensures c !in Concat(ts)
    decreases |ts|
  {
    if |ts| > 0 {
      ConcatChars(ts[1..], c);
      assert c !in ts[0];
    }
  }

  /** The letters of the earlier markers "o2locktop", "acquisitions" and
      "resources" that no column name contains. */
  predicate LacksMarkers(s: string) {
    'o' !in s && 'a' !in s && 'r' !in s
  }

  /** Each column name is a word without the markers' letters. */
  lemma ColumnIsPlain(k: nat)
    requires k < |Columns|
    ensures IsWord(Columns[k]) && LacksMarkers(Columns[k])
  {
    if k < 4 {
      LeadingColumnPlain(k);
    } else {
      TrailingColumnPlain(k);
    }
  }

  lemma LeadingColumnPlain(k: nat)
    requires k < 4
    ensures IsWord(Columns[k]) && LacksMarkers(Columns[k])
  {
    if k == 0 {
      assert IsWord("TYPE") && LacksMarkers("TYPE");
    } else if k == 1 {
      assert IsWord("INO") && LacksMarkers("INO");
    } else if k == 2 {
      assert IsWord("EXNUM") && LacksMarkers("EXNUM");
    } else {
      assert IsWord("EXTIME(us)") && LacksMarkers("EXTIME(us)");
    }
  }

  lemma TrailingColumnPlain(k: nat)
    requires 4 <= k < |Columns|
    ensures IsWord(Columns[k]) && LacksMarkers(Columns[k])
  {
    if k == 4 {
      assert IsWord("EXAVG(us)") && LacksMarkers("EXAVG(us)");
    } else if k == 5 {
      assert IsWord("PRNUM") && LacksMarkers("PRNUM");
    } else if k == 6 {
      assert IsWord("PRTIME(us)") && LacksMarkers("PRTIME(us)");
    } else {
      assert IsWord("PRAVG(us)") && LacksMarkers("PRAVG(us)");
    }
  }

  /** None of the earlier markers' letters 'o', 'a', 'r' is in the header. */
  lemma CanonicalLacksMarkers()
    ensures LacksMarkers(CanonicalHead)
  {
    forall i | 0 <= i < |Columns|
      ensures 'o' !in Columns[i] && 'a' !in Columns[i] && 'r' !in Columns[i]
    {
      ColumnIsPlain(i);
    }
    ConcatChars(Columns, 'o');
    ConcatChars(Columns, 'a');
    ConcatChars(Columns, 'r');
  }

  /** The header as the monitor lays it out, columns separated by spaces, is
      classified as the column header and accepted. */
  lemma ColumnsAccepted()
    ensures Classify(Join(Columns)) == Head
    ensures HandleHead(Join(Columns))
  {
    ColumnsAreWords();
    TimeColumn();
    HeadOfColumns(Columns, 3);
  }

  lemma ColumnsAreWords()
    ensures AllWords(Columns)
  {
    forall i | 0 <= i < |Columns|
      ensures IsWord(Columns[i])
    {
      ColumnIsPlain(i);
    }
  }

  lemma TimeColumn()
    ensures Contains(Columns[3], "TIME(us)")
  {
    assert OccursAt(Columns[3], "TIME(us)", 2);
    ContainsIffOccurs(Columns[3], "TIME(us)");
  }

  /** The comparison removes spaces only: a stripped header holding any other
      character the canonical header lacks, a tab between columns say, is refused. */
  lemma HeadRefusesForeignChar(line: string, c: char)
    requires |line| > 0
    requires c in Strip(line) && c != ' ' && c !in CanonicalHead
    ensures !HandleHead(line)
  {
  }

}

=== FILE: lines.dfy ===
/** One line of the monitor's screen output: removal of the terminal clear
    sequences (`remove_clear`) and the first-match line classifier
    (`get_line_type` with the four `is_*_line` keyword tests). */
module Lines {
  import opened Text

  const Esc: char := '\U{1B}'

  /** Cursor home, clear screen, clear scroll-back. */
  const ClearHomeFirst: string := [Esc, '[', 'H', Esc, '[', '2', 'J', Esc, '[', '3', 'J']

  /** The same three controls with clear scroll-back first. */
  const ClearScrollFirst: string := [Esc, '[', '3', 'J', Esc, '[', 'H', Esc, '[', '2', 'J']

  /** `remove_clear`: every occurrence of the first sequence is removed, then every
      occurrence of the second in what is left. */
  function RemoveClear(line: string): (r: string)
    ensures |r| <= |line|
    ensures forall c :: c in r ==> c in line
  {
    ReplaceAll(ReplaceAll(line, ClearHomeFirst, ""), ClearScrollFirst, "")
  }

  /** A line without escape characters is left alone. */
  lemma RemoveClearPlain(line: string)
    requires Esc !in line
    ensures RemoveClear(line) == line
  {
    MissingCharNotContained(line, ClearHomeFirst, 0);
    ReplaceAbsent(line, ClearHomeFirst, "");
    MissingCharNotContained(line, ClearScrollFirst, 0);
    ReplaceAbsent(line, ClearScrollFirst, "");
  }

  /** The second sequence followed by plain text holds no copy of the first. */
  lemma ScrollFirstHoldsNoHomeFirst(line: string)
    requires Esc !in line
    ensures !Contains(ClearScrollFirst + line, ClearHomeFirst)
  {
    var a, u := ClearHomeFirst, ClearScrollFirst + line;
    assert |a| == 11 && a[0] == Esc && a[3] == Esc && a[7] == Esc;
    assert u[1] == '[' && u[2] == '3' && u[3] == 'J' && u[10] == 'J';
    forall i ensures !OccursAt(u, a, i) {
      if 0 <= i && i + 11 <= |u| {
        var w := u[i..i + 11];
        if i >= 4 {
          assert u[i + 7] == line[i - 4];
          assert w[7] != a[7];
        } else if i == 0 {
          assert w[3] != a[3];
        } else {
          assert w[0] != a[0];
        }
      }
    }
    ContainsIffOccurs(u, a);
  }

  /** A refresh that starts by clearing the screen, in either order of the
      controls, yields the plain line that follows the controls. */
  lemma RemoveClearLeading(line: string)
    requires Esc !in line
    ensures RemoveClear(ClearHomeFirst + line) == line
    ensures RemoveClear(ClearScrollFirst + line) == line
  {
    var a, b := ClearHomeFirst, ClearScrollFirst;
    RemoveClearPlain(line);
    assert (a + line)[..|a|] == a && (a + line)[|a|..] == line;
    assert ReplaceAll(a + line, a, "") == ReplaceAll(line, a, "");
    var u := b + line;
    ScrollFirstHoldsNoHomeFirst(line);
    ReplaceAbsent(u, a, "");
    assert u[..|b|] == b && u[|b|..] == line;
    MissingCharNotContained(line, b, 0);
    ReplaceAbsent(line, b, "");
    assert ReplaceAll(u, b, "") == "" + ReplaceAll(line, b, "");
  }

  /** A line where a first-order sequence is embedded in the middle of another. */
  function Tangled(): (s: string)
  {
    [Esc, '[', 'H', Esc, '[', '2'] + ClearHomeFirst + ['J', Esc, '[', '3', 'J']
  }

  lemma TangledInner()
    ensures ReplaceAll(Tangled()[6..], ClearHomeFirst, "") == ['J', Esc, '[', '3', 'J']
  {
    var a, s := ClearHomeFirst, Tangled();
    var tail := ['J', Esc, '[', '3', 'J'];
    assert s[6..] == a + tail;
    assert s[6..][..|a|] == a && s[6..][|a|..] == tail;
    assert ReplaceAll(tail, a, "") == tail;
    assert ReplaceAll(s[6..], a, "") == "" + ReplaceAll(tail, a, "");
  }

  /** The first complete occurrence in the tangled line starts at index 6. */
  lemma TangledNoEarlyOccurrence(j: nat)
    requires j < 6
    ensures !OccursAt(Tangled(), ClearHomeFirst, j)
  {
    var a, s := ClearHomeFirst, Tangled();
    var w := s[j..j + 11];
    if j == 0 {
      assert w[6] == Esc != a[6];
    } else if j == 3 {
      assert w[2] == '2' != a[2];
    } else {
      assert w[0] == s[j] != a[0];
    }
  }

  lemma TangledFirstPass()
    ensures ReplaceAll(Tangled(), ClearHomeFirst, "") == ClearHomeFirst
  {
    var a, s := ClearHomeFirst, Tangled();
    forall j | 0 <= j < 6 ensures !OccursAt(s, a, j) {
      TangledNoEarlyOccurrence(j);
    }
    ReplaceSkip(s, a, "", 6);
    TangledInner();
    TangledHalves();
  }

  /** The six characters before the inner occurrence and the five after it form
      the sequence again. */
  lemma TangledHalves()
    ensures Tangled()[..6] + ['J', Esc, '[', '3', 'J'] == ClearHomeFirst
  {
  }

  lemma ClearHomeFirstSurvivesSecondPass()
    ensures ReplaceAll(ClearHomeFirst, ClearScrollFirst, "") == ClearHomeFirst
  {
    var a, b := ClearHomeFirst, ClearScrollFirst;
    assert a[..|b|][2] == 'H' && b[2] == '3';
    assert |a[1..]| < |b|;
  }

  /** Stripping is not idempotent: removing one sequence can bring the pieces of
      another occurrence together, and that one survives the single pass. */
  lemma RemoveClearNotIdempotent()
    ensures RemoveClear(Tangled()) == ClearHomeFirst
    ensures RemoveClear(RemoveClear(Tangled())) == []
  {
    var a := ClearHomeFirst;
    TangledFirstPass();
    ClearHomeFirstSurvivesSecondPass();
    assert a[..|a|] == a && a[|a|..] == [];
    assert ReplaceAll(a, a, "") == [];
  }

  // ---------------------------------------------------------------------------
  // Classification

  datatype LineKind = First | Second | Third | Head | Locks | Blank | Unknown

  predicate IsFirstLine(line: string) { Contains(line, "o2locktop") }
  predicate IsSecondLine(line: string) { Contains(line, "acquisitions") }
  predicate IsThirdLine(line: string) { Contains(line, "resources") }
  predicate IsHeadLine(line: string) { Contains(line, "TIME(us)") }

  /** Token shape of a lock row: eight tokens, an alphabetic type, and seven
      tokens that are digits once every '-' is dropped. */
  predicate IsLocksShape(ts: seq<string>) {
    && |ts| == 8
    && IsAlpha(ts[0])
    && forall i :: 1 <= i < 8 ==> IsDigits(RemoveChar(ts[i], '-'))
  }

  /** `get_line_type` on a line already stripped of clear sequences. */
  function Classify(line: string): (k: LineKind)
    ensures Admits(k, line)
  {
    if IsFirstLine(line) then First
    else if IsSecondLine(line) then Second
    else if IsThirdLine(line) then Third
    else if IsHeadLine(line) then Head
    else if IsLocksShape(Split(line)) then Locks
    else if Strip(line) == [] then Blank
    else Unknown
  }

  /** `get_line_type()` reading a raw line: clear sequences go first. */
  function GetLineType(raw: string): (k: LineKind)
    ensures Admits(k, RemoveClear(raw))
  {
    Classify(RemoveClear(raw))
  }

  /** The numeric code `get_line_type` returns beside the kind. */
  function Code(k: LineKind): (c: nat)
    ensures c <= 5
    ensures c == 5 <==> k == Blank || k == Unknown
  {
    match k
    case First => 0
    case Second => 1
    case Third => 2
    case Head => 3
    case Locks => 4
    case Blank => 5
    case Unknown => 5
  }

  /** Position of each kind's test in the classifier's priority order. */
  function Rank(k: LineKind): (r: nat)
    ensures r < 7
  {
    match k
    case First => 0
    case Second => 1
    case Third => 2
    case Head => 3
    case Locks => 4
    case Blank => 5
    case Unknown => 6
  }

  function KindAt(j: nat): (k: LineKind)
    requires j < 7
    ensures Rank(k) == j
  {
    [First, Second, Third, Head, Locks, Blank, Unknown][j]
  }

  /** The test that admits a line into each kind, taken on its own. */
  predicate Admits(k: LineKind, line: string)
  {
    match k
    case First => IsFirstLine(line)
    case Second => IsSecondLine(line)
    case Third => IsThirdLine(line)
    case Head => IsHeadLine(line)
    case Locks => IsLocksShape(Split(line))
    case Blank => AllSpace(line)
    case Unknown => true
  }

  /** First match wins: a line gets kind `k` exactly when `k`'s test admits it
      and no test earlier in the order does. */
  lemma ClassifyFirstMatch(line: string, k: LineKind)
    ensures Classify(line) == k <==>
            Admits(k, line) && forall j :: 0 <= j < Rank(k) ==> !Admits(KindAt(j), line)
  {
    var c := Classify(line);
    assert Admits(c, line);
    forall j | 0 <= j < Rank(c) ensures !Admits(KindAt(j), line) {
      assert KindAt(j) in [First, Second, Third, Head, Locks, Blank][..Rank(c)];
    }
    if Admits(k, line) && forall j :: 0 <= j < Rank(k) ==> !Admits(KindAt(j), line) {
      assert KindAt(Rank(c)) == c && KindAt(Rank(k)) == k;
      assert Rank(c) < Rank(k) ==> !Admits(c, line);
      assert Rank(k) < Rank(c) ==> !Admits(k, line);
    }
  }

  /** Only `blank` and `unknown` share a code. */
  lemma CodeShared(a: LineKind, b: LineKind)
    ensures Code(a) == Code(b) <==> a == b || {a, b} == {Blank, Unknown}
  {
  }

  /** A line of separators only is `blank`. */
  lemma SeparatorsAreBlank(line: string)
    requires AllSpace(line)
    ensures Classify(line) == Blank
  {
    MissingCharNotContained(line, "o2locktop", 0);
    MissingCharNotContained(line, "acquisitions", 0);
    MissingCharNotContained(line, "resources", 0);
    MissingCharNotContained(line, "TIME(us)", 0);
    SplitEmptyIffAllSpace(line);
  }
}

=== FILE: monitor.dfy ===
/** `dynamics_test`, `static_test` and the cycle schedule of `run`, over one
    finite stream of monitor output that every frame reads on from where the
    previous frame stopped. */
module Monitor {
  import opened Frame
  import opened Verdicts

  // ---------------------------------------------------------------------------
  // Several frames in a row

  /** A way of reading one frame: `TestOneFrame`, or anything that, like it,
      reads at least one line and no more than it is given when it completes. */
  type Reader = (Env, int, seq<string>) -> Outcome

  ghost predicate Sound(read: Reader) {
    forall env, total, lines :: read(env, total, lines).Complete? ==>
      0 < read(env, total, lines).used <= |lines|
  }

  lemma FramesAreSound()
    ensures Sound(TestOneFrame) && Sound(CorrectedFrame)
  {
  }

  /** Reading `count` frames in a row: the TOTAL after each, and the lines they
      read together; or the first frame that did not complete. */
  datatype Frames = Read(totals: seq<int>, used: nat) | Stopped(outcome: Outcome)

  function ReadFrames(read: Reader, env: Env, total: int, lines: seq<string>, count: nat): (r: Frames)
    requires Sound(read)
    ensures r.Read? ==> |r.totals| == count && r.used <= |lines|
    ensures r.Read? ==> r.used >= count
    ensures r.Stopped? ==> !r.outcome.Complete?
    decreases count
  {
    if count == 0 then Read([], 0)
    else match read(env, total, lines)
      case Complete(t, _, used) =>
        (match ReadFrames(read, env, t, lines[used..], count - 1)
         case Read(ts, more) => Read([t] + ts, used + more)
         case Stopped(o) => Stopped(o))
      case o => Stopped(o)
  }

  /** Each total in a run of frames is the one its frame left, read from where
      the frames before it stopped. */
  lemma {:induction false} ReadFramesChain(read: Reader, env: Env, total: int, lines: seq<string>, count: nat)
    requires Sound(read)
    requires count > 0 && ReadFrames(read, env, total, lines, count).Read?
    ensures var o := read(env, total, lines);
            && o.Complete? && ReadFrames(read, env, total, lines, count).totals[0] == o.total
            && var r := ReadFrames(read, env, o.total, lines[o.used..], count - 1);
               && r.Read?
               && ReadFrames(read, env, total, lines, count).totals[1..] == r.totals
               && ReadFrames(read, env, total, lines, count).used == o.used + r.used
  {
  }

  // ---------------------------------------------------------------------------
  // The tests

  /** How a test or the whole run ends when its frames do not complete. */
  datatype Test = Verdict(pass: bool, total: int, used: nat) | Interrupted(outcome: Outcome)

  /** The frames `dynamics_test` reads in the Python 3 version: one for `total1`,
      then four samples taken while the directory is listed. */
  const DynamicFrames: nat := 5

  /** A dynamic test reading `frames` frames: the first gives `total1`, the
      rest are the samples. With no remote nodes the local criterion is used,
      else the remote one. The verdict is only logged; TOTAL and the stream move
      on. */
  function Dynamic(read: Reader, env: Env, nodes: seq<string>, frames: nat, total: int, lines: seq<string>): (t: Test)
    requires Sound(read) && frames >= 2
    ensures t.Verdict? ==> 0 < t.used <= |lines|
    ensures t.Interrupted? ==> !t.outcome.Complete?
  {
    match ReadFrames(read, env, total, lines, frames)
    case Stopped(o) => Interrupted(o)
    case Read(ts, used) =>
      var total1 := ts[0];
      var samples := ts[1..];
      Verdict(if |nodes| == 0 then LocalPass(total1, samples) else RemotePass(total1, samples),
              ts[frames - 1], used)
  }

  /** `dynamics_test` as the Python 3 version runs it. */
  function DynamicsTest(read: Reader, env: Env, nodes: seq<string>, total: int, lines: seq<string>): (t: Test)
    requires Sound(read)
    ensures t.Verdict? ==> 0 < t.used <= |lines|
    ensures t.Verdict? <==> ReadFrames(read, env, total, lines, DynamicFrames).Read?
    ensures t.Verdict? ==> t.total == ReadFrames(read, env, total, lines, DynamicFrames).totals[4]
    ensures t.Verdict? ==> t.used == ReadFrames(read, env, total, lines, DynamicFrames).used
  {
    Dynamic(read, env, nodes, DynamicFrames, total, lines)
  }

  /** Local and remote mode reach the same verdict on the same stream, so the
      node list only decides where the load is generated. */
  lemma DynamicModesAgree(read: Reader, env: Env, nodes: seq<string>, total: int, lines: seq<string>)
    requires Sound(read)
    ensures DynamicsTest(read, env, nodes, total, lines) == DynamicsTest(read, env, [], total, lines)
  {
    match ReadFrames(read, env, total, lines, DynamicFrames)
    case Stopped(_) =>
    case Read(ts, _) => LocalAgreesWithRemote(ts[0], ts[1..]);
  }

  /** The dynamic test passes exactly when one of the four sample frames leaves a
      TOTAL above the one the first frame left. */
  lemma DynamicPassMeans(read: Reader, env: Env, nodes: seq<string>, total: int, lines: seq<string>)
    requires Sound(read)
    requires ReadFrames(read, env, total, lines, DynamicFrames).Read?
    ensures var ts := ReadFrames(read, env, total, lines, DynamicFrames).totals;
            DynamicsTest(read, env, nodes, total, lines).pass <==> exists j :: 1 <= j < 5 && ts[0] < ts[j]
  {
    var ts := ReadFrames(read, env, total, lines, DynamicFrames).totals;
    LocalAgreesWithRemote(ts[0], ts[1..]);
    if LocalPass(ts[0], ts[1..]) {
      var k := FirstExceeding(ts[0], ts[1..]).value;
      assert ts[0] < ts[k + 1];
    }
    if exists j :: 1 <= j < 5 && ts[0] < ts[j] {
      var j :| 1 <= j < 5 && ts[0] < ts[j];
      assert ts[1..][j - 1] == ts[j];
    }
  }

  /** `static_test`, which `run` no longer calls: two frames, compared with the
      ten-percent window. */
  function StaticTest(read: Reader, env: Env, total: int, lines: seq<string>): (t: Test)
    requires Sound(read)
    ensures t.Verdict? ==> 0 < t.used <= |lines|
    ensures t.Verdict? <==> ReadFrames(read, env, total, lines, 2).Read?
    ensures t.Verdict? ==>
      var ts := ReadFrames(read, env, total, lines, 2).totals;
      && t.total == ts[1]
      && (t.pass <==> StaticPass(ts[0], ts[1]))
  {
    match ReadFrames(read, env, total, lines, 2)
    case Stopped(o) => Interrupted(o)
    case Read(ts, used) => Verdict(StaticPass(ts[0], ts[1]), ts[1], used)
  }

  // ---------------------------------------------------------------------------
  // The schedule of `run`

  /** Cycle `c`, counting from one, starts with a dynamic test. */
  predicate IsDynamicCycle(c: nat) {
    c % 10 == 2
  }

  /** How the run ends: killed once its budget is spent, at the end of the input,
      or by an escaping exception. */
  datatype End = Killed | InputEnded | Raised(failure: Failure)

  /** What a run leaves behind: the dynamic verdicts it logged, in order, the
      cycles it started, and how it ended. */
  datatype Report = Report(verdicts: seq<bool>, cycles: nat, end: End)

  function EndOf(o: Outcome): (e: End)
    requires !o.Complete?
    ensures !e.Killed?
    ensures e.Raised? <==> o.Crashed?
  {
    if o.Crashed? then Raised(o.failure) else InputEnded
  }

  /** Cycles from `c` on, with TOTAL at `total`. The budget is `days * 17280`
      rounded down, which the float comparison `i > loop_times` on an integer `i`
      is equivalent to. */
  function Cycles(read: Reader, env: Env, nodes: seq<string>, frames: nat, budget: int, c: nat, total: int,
                  lines: seq<string>, verdicts: seq<bool>): (r: Report)
    requires Sound(read) && frames >= 2
    requires c >= 1
    ensures r.cycles >= c
    ensures |r.verdicts| >= |verdicts| && r.verdicts[..|verdicts|] == verdicts
    decreases |lines|, 1
  {
    if IsDynamicCycle(c) then
      match Dynamic(read, env, nodes, frames, total, lines)
      case Interrupted(o) => Report(verdicts, c, EndOf(o))
      case Verdict(pass, t, used) => Steady(read, env, nodes, frames, budget, c, t, lines[used..], verdicts + [pass])
    else Steady(read, env, nodes, frames, budget, c, total, lines, verdicts)
  }

  /** The rest of cycle `c`: one frame, then the budget test. */
  function Steady(read: Reader, env: Env, nodes: seq<string>, frames: nat, budget: int, c: nat, total: int,
                  lines: seq<string>, verdicts: seq<bool>): (r: Report)
    requires Sound(read) && frames >= 2
    requires c >= 1
    ensures r.cycles >= c
    ensures |r.verdicts| >= |verdicts| && r.verdicts[..|verdicts|] == verdicts
    decreases |lines|, 0
  {
    match read(env, total, lines)
    case Complete(t, _, used) =>
      if c > budget then Report(verdicts, c, Killed)
      else Cycles(read, env, nodes, frames, budget, c + 1, t, lines[used..], verdicts)
    case o => Report(verdicts, c, EndOf(o))
  }

  /** `run` from its first cycle, TOTAL starting at 0. */
  function RunMonitor(env: Env, nodes: seq<string>, budget: int, lines: seq<string>): (r: Report)
    ensures 1 <= r.cycles <= Allowed(budget)
    ensures r.end.Killed? ==> r.cycles == Allowed(budget)
  {
    FramesAreSound();
    CyclesWithinBudget(TestOneFrame, env, nodes, DynamicFrames, budget, 1, 0, lines, []);
    Cycles(TestOneFrame, env, nodes, DynamicFrames, budget, 1, 0, lines, [])
  }

  /** The cycles the budget allows: one past the budget, and at least one. */
  function Allowed(budget: int): (n: nat)
    ensures n >= 1 && n >= budget + 1
  {
    if budget >= 0 then budget + 1 else 1
  }

  /** The dynamic cycles among cycles `1..n`. */
  function DynamicCount(n: nat): (d: nat)
    ensures d <= n
  {
    if n == 0 then 0 else DynamicCount(n - 1) + (if IsDynamicCycle(n) then 1 else 0)
  }

  /** Every tenth cycle is dynamic, from the second on. */
  lemma {:induction false} DynamicCountClosed(n: nat)
    ensures DynamicCount(n) == (n + 8) / 10
  {
    if n > 0 {
      DynamicCountClosed(n - 1);
    }
  }

  /** A run never starts more cycles than its budget allows, and a run that is
      killed has started exactly that many. */
  lemma {:induction false} CyclesWithinBudget(read: Reader, env: Env, nodes: seq<string>, frames: nat, budget: int, c: nat,
                                              total: int, lines: seq<string>, verdicts: seq<bool>)
    requires Sound(read) && frames >= 2
    requires 1 <= c <= Allowed(budget)
    ensures var r := Cycles(read, env, nodes, frames, budget, c, total, lines, verdicts);
            r.cycles <= Allowed(budget) && (r.end.Killed? ==> r.cycles == Allowed(budget))
    decreases |lines|, 1
  {
    if IsDynamicCycle(c) {
      match Dynamic(read, env, nodes, frames, total, lines)
      case Interrupted(_) =>
      case Verdict(pass, t, used) =>
        SteadyWithinBudget(read, env, nodes, frames, budget, c, t, lines[used..], verdicts + [pass]);
    } else {
      SteadyWithinBudget(read, env, nodes, frames, budget, c, total, lines, verdicts);
    }
  }

  lemma {:induction false} SteadyWithinBudget(read: Reader, env: Env, nodes: seq<string>, frames: nat, budget: int, c: nat,
                                              total: int, lines: seq<string>, verdicts: seq<bool>)
    requires Sound(read) && frames >= 2
    requires 1 <= c <= Allowed(budget)
    ensures var r := Steady(read, env, nodes, frames, budget, c, total, lines, verdicts);
            r.cycles <= Allowed(budget) && (r.end.Killed? ==> r.cycles == Allowed(budget))
    decreases |lines|, 0
  {
    match read(env, total, lines)
    case Complete(t, _, used) =>
      if c <= budget {
        CyclesWithinBudget(read, env, nodes, frames, budget, c + 1, t, lines[used..], verdicts);
      }
    case _ =>
  }

  /** The run's dynamic verdicts: one per dynamic cycle among those started,
      less one when the run stopped inside a dynamic test. */
  lemma {:induction false} CyclesVerdicts(read: Reader, env: Env, nodes: seq<string>, frames: nat, budget: int, c: nat,
                                          total: int, lines: seq<string>, verdicts: seq<bool>)
    requires Sound(read) && frames >= 2
    requires c >= 1 && |verdicts| == DynamicCount(c - 1)
    ensures var r := Cycles(read, env, nodes, frames, budget, c, total, lines, verdicts);
            |r.verdicts| == DynamicCount(r.cycles) ||
            (|r.verdicts| + 1 == DynamicCount(r.cycles) && IsDynamicCycle(r.cycles) && !r.end.Killed?)
    decreases |lines|, 1
  {
    if IsDynamicCycle(c) {
      match Dynamic(read, env, nodes, frames, total, lines)
      case Interrupted(_) =>
      case Verdict(pass, t, used) =>
        SteadyVerdicts(read, env, nodes, frames, budget, c, t, lines[used..], verdicts + [pass]);
    } else {
      SteadyVerdicts(read, env, nodes, frames, budget, c, total, lines, verdicts);
    }
  }

  lemma {:induction false} SteadyVerdicts(read: Reader, env: Env, nodes: seq<string>, frames: nat, budget: int, c: nat,
                                          total: int, lines: seq<string>, verdicts: seq<bool>)
    requires Sound(read) && frames >= 2
    requires c >= 1 && |verdicts| == DynamicCount(c)
    ensures var r := Steady(read, env, nodes, frames, budget, c, total, lines, verdicts);
            |r.verdicts| == DynamicCount(r.cycles) ||
            (|r.verdicts| + 1 == DynamicCount(r.cycles) && IsDynamicCycle(r.cycles) && !r.end.Killed?)
    decreases |lines|, 0
  {
    match read(env, total, lines)
    case Complete(t, _, used) =>
      if c <= budget {
        CyclesVerdicts(read, env, nodes, frames, budget, c + 1, t, lines[used..], verdicts);
      }
    case _ =>
  }

  /** A run that spends its budget starts one cycle more than the budget (at
      least one) and logs one dynamic verdict for every tenth cycle from the
      second on. */
  lemma KilledRun(env: Env, nodes: seq<string>, budget: int, lines: seq<string>)
    requires RunMonitor(env, nodes, budget, lines).end.Killed?
    ensures RunMonitor(env, nodes, budget, lines).cycles == Allowed(budget)
    ensures |RunMonitor(env, nodes, budget, lines).verdicts| == (Allowed(budget) + 8) / 10
  {
    FramesAreSound();
    CyclesWithinBudget(TestOneFrame, env, nodes, DynamicFrames, budget, 1, 0, lines, []);
    CyclesVerdicts(TestOneFrame, env, nodes, DynamicFrames, budget, 1, 0, lines, []);
    DynamicCountClosed(Allowed(budget));
  }
}

=== FILE: numbers.dfy ===
/** Decimal numbers as the checker reads them: Python's `int()` on a token, and
    the decimal renderings (`str(n)`, and counts with a comma every three digits)
    that the monitored tool prints and `int()` reads back. */
module Numbers {
  import opened Options
  import opened Text

  function DigitValue(c: char): (d: nat)
    requires IsDigit(c)
    ensures d < 10
  {
    c as int - '0' as int
  }

  function DigitChar(d: nat): (c: char)
    requires d < 10
    ensures IsDigit(c) && DigitValue(c) == d
  {
    ('0' as int + d) as char
  }

  predicate AllDigits(s: string) {
    forall i :: 0 <= i < |s| ==> IsDigit(s[i])
  }

  /** Value of a run of decimal digits, most significant first. */
  function DigitsValue(s: string): (v: nat)
    requires AllDigits(s)
  {
    if |s| == 0 then 0 else 10 * DigitsValue(s[..|s| - 1]) + DigitValue(s[|s| - 1])
  }

  /** `str(n)` for a non-negative `n`. */
  function Decimal(n: nat): (r: string)
    ensures IsDigits(r)
    ensures DigitsValue(r) == n
    ensures n > 0 ==> r[0] != '0'
  {
    if n < 10 then [DigitChar(n)]
    else
      var r := Decimal(n / 10) + [DigitChar(n % 10)];
      assert r[..|r| - 1] == Decimal(n / 10);
      r
  }

  /** `str(n)`. */
  function IntString(n: int): (r: string)
    ensures |r| > 0
    ensures forall i :: 0 <= i < |r| ==> IsDigit(r[i]) || r[i] == '-'
  {
    if n < 0 then "-" + Decimal(-n) else Decimal(n)
  }

  /** The digit part `int()` accepts: digits, single underscores only between
      digits. */
  predicate IsDigitGroups(s: string) {
    && |s| > 0 && IsDigit(s[0]) && IsDigit(s[|s| - 1])
    && (forall i :: 0 <= i < |s| ==> IsDigit(s[i]) || s[i] == '_')
    && (forall i :: 0 <= i < |s| - 1 ==> s[i] != '_' || s[i + 1] != '_')
  }

  function GroupsValue(s: string): (v: nat)
    requires IsDigitGroups(s)
  {
    var d := RemoveChar(s, '_');
    assert forall i :: 0 <= i < |d| ==> d[i] in s && d[i] != '_';
    DigitsValue(d)
  }

  /** Python's `int(s)` in base 10: surrounding separators are ignored, one
      optional sign, then digit groups; anything else raises `ValueError`,
      modelled as `None`. */
  function ParseInt(s: string): (r: Option<int>)
  {
    ParseStripped(Strip(s))
  }

  /** `int()` once the separators around the token are gone. */
  function ParseStripped(t: string): (r: Option<int>)
  {
    if |t| > 0 && (t[0] == '+' || t[0] == '-') then
      match ParseUnsigned(t[1..])
      case None => None
      case Some(v) => Some(if t[0] == '-' then -(v as int) else v)
    else ParseUnsigned(t)
  }

  /** The unsigned digit groups `int()` accepts, and their value. */
  function ParseUnsigned(t: string): (r: Option<nat>)
  {
    if IsDigitGroups(t) then Some(GroupsValue(t)) else None
  }

  lemma DigitsAreGroups(d: string)
    requires IsDigits(d)
    ensures IsDigitGroups(d) && GroupsValue(d) == DigitsValue(d)
  {
    assert '_' !in d;
  }

  /** `int()` reads a plain run of digits as its decimal value. */
  lemma ParseDigits(d: string)
    requires IsDigits(d)
    ensures ParseInt(d) == Some(DigitsValue(d))
  {
    DigitsStripped(d);
    UnsignedDigits(d);
    assert d[0] != '+' && d[0] != '-';
  }

  lemma DigitsStripped(d: string)
    requires IsDigits(d)
    ensures Strip(d) == d
  {
    assert IsDigit(d[0]) && IsDigit(d[|d| - 1]);
    StripNoEdgeSpace(d);
  }

  lemma UnsignedDigits(d: string)
    requires IsDigits(d)
    ensures ParseUnsigned(d) == Some(DigitsValue(d))
  {
    DigitsAreGroups(d);
  }

  /** `int(str(n)) == n`. */
  lemma ParseIntString(n: int)
    ensures ParseInt(IntString(n)) == Some(n)
  {
    if n < 0 {
      ParseNegative(Decimal(-n));
    } else {
      ParseDigits(Decimal(n));
    }
  }

  /** `int("-" + d)` for a run of digits `d`. */
  lemma ParseNegative(d: string)
    requires IsDigits(d)
    ensures ParseInt("-" + d) == Some(-(DigitsValue(d) as int))
  {
    var s := "-" + d;
    assert s[0] == '-' && s[|s| - 1] == d[|d| - 1];
    ParseUnstripped(s);
    ParseStrippedNegative(d);
  }

  lemma ParseStrippedNegative(d: string)
    requires IsDigits(d)
    ensures ParseStripped("-" + d) == Some(-(DigitsValue(d) as int))
  {
    var s := "-" + d;
    assert s[0] == '-' && s[1..] == d;
    UnsignedDigits(d);
  }

  /** `int()` on a token with no separator at either end. */
  lemma ParseUnstripped(s: string)
    requires |s| > 0 && !IsSpace(s[0]) && !IsSpace(s[|s| - 1])
    ensures ParseInt(s) == ParseStripped(s)
  {
    StripNoEdgeSpace(s);
  }

  /** A token made only of digits and '-' (what the row classifier lets through)
      is read by `int()` exactly when it is digits with at most one leading '-'. */
  lemma ParseDashDigits(t: string)
    requires |t| > 0 && forall i :: 0 <= i < |t| ==> IsDigit(t[i]) || t[i] == '-'
    ensures ParseInt(t).Some? <==> IsDigits(t) || (t[0] == '-' && IsDigits(t[1..]))
  {
    StripNoEdgeSpace(t);
    if t[0] == '-' {
      if IsDigitGroups(t[1..]) {
        assert forall i :: 0 <= i < |t[1..]| ==> t[1..][i] == t[i + 1];
      }
      if IsDigits(t[1..]) {
        DigitsAreGroups(t[1..]);
      }
    } else {
      if IsDigits(t) {
        DigitsAreGroups(t);
      }
    }
  }

  // ---------------------------------------------------------------------------
  // Counts with thousands separators

  function Pad3(k: nat): (r: string)
    requires k < 1000
    ensures |r| == 3 && AllDigits(r)
  {
    [DigitChar(k / 100), DigitChar(k / 10 % 10), DigitChar(k % 10)]
  }

  /** A count as the monitor prints it: decimal with a ',' before every group of
      three digits. */
  function Grouped(n: nat): (r: string)
  {
    if n < 1000 then Decimal(n) else Grouped(n / 1000) + "," + Pad3(n % 1000)
  }

  lemma DigitsValueAppend3(x: string, k: nat)
    requires AllDigits(x) && k < 1000
    ensures AllDigits(x + Pad3(k))
    ensures DigitsValue(x + Pad3(k)) == 1000 * DigitsValue(x) + k
  {
    var a, b, c := k / 100, k / 10 % 10, k % 10;
    var s1 := x + [DigitChar(a)];
    var s2 := s1 + [DigitChar(b)];
    var s3 := s2 + [DigitChar(c)];
    assert s3 == x + Pad3(k);
    DigitsValueAppend1(x, a);
    DigitsValueAppend1(s1, b);
    DigitsValueAppend1(s2, c);
    assert k == 100 * a + 10 * b + c;
  }

  /** Appending one digit shifts the value one decimal place. */
  lemma DigitsValueAppend1(x: string, d: nat)
    requires AllDigits(x) && d < 10
    ensures AllDigits(x + [DigitChar(d)])
    ensures DigitsValue(x + [DigitChar(d)]) == 10 * DigitsValue(x) + d
  {
    var s := x + [DigitChar(d)];
    assert s[..|s| - 1] == x;
  }


  /** Removing the separators from a grouped count leaves the digits of the
      count. */
  lemma {:induction false} GroupedDigits(n: nat)
    ensures IsDigits(RemoveChar(Grouped(n), ','))
    ensures DigitsValue(RemoveChar(Grouped(n), ',')) == n
    decreases n
  {
    if n >= 1000 {
      GroupedDigits(n / 1000);
      GroupedSeparators(n);
      var x := RemoveChar(Grouped(n / 1000), ',');
      DigitsValueAppend3(x, n % 1000);
      assert 1000 * (n / 1000) + n % 1000 == n;
    }
  }

  /** Dropping the separators of a count of four digits or more. */
  lemma GroupedSeparators(n: nat)
    requires n >= 1000
    ensures RemoveChar(Grouped(n), ',') == RemoveChar(Grouped(n / 1000), ',') + Pad3(n % 1000)
  {
    var hi := Grouped(n / 1000);
    var p := Pad3(n % 1000);
    assert Grouped(n) == (hi + ",") + p;
    RemoveCharAppend(hi + ",", p, ',');
    RemoveCharAppend(hi, ",", ',');
    assert RemoveChar(",", ',') == [];
    assert ',' !in p by {
      forall i | 0 <= i < |p| ensures p[i] != ',' {
        assert IsDigit(p[i]);
      }
    }
    assert RemoveChar(hi, ',') + [] == RemoveChar(hi, ',');
  }

  /** `int(s.replace(",", ""))` reads a grouped count back. */
  lemma ParseGrouped(n: nat)
    ensures ParseInt(RemoveChar(Grouped(n), ',')) == Some(n)
  {
    GroupedDigits(n);
    ParseDigits(RemoveChar(Grouped(n), ','));
  }
}

=== FILE: options.dfy ===
/** The optional value used where the source returns a value or nothing. */
module Options {

  datatype Option<+T> = None | Some(value: T)
}

=== FILE: rows.dfy ===
/** The lock rows of a frame: `not_negative`, `handle_one_line` as written and as
    evidently intended, and rows rendered the way the monitor prints them. */
module Rows {
  import opened Options
  import opened Text
  import opened Numbers
  import opened Lines

  // ---------------------------------------------------------------------------
  // The row check

  /** `not_negative(num)`: `int(num) >= 0`, and `False` when `int()` raises. */
  function NotNegative(num: string): (ok: bool)
    ensures ok <==> ParseInt(num).Some? && ParseInt(num).value >= 0
  {
    match ParseInt(num)
    case None => false
    case Some(v) => v >= 0
  }

  /** The exceptions `handle_one_line` lets escape. */
  datatype RowError =
    | BadInode(token: string)   // `int(line[1])` raised `ValueError`
    | UnboundRawLine            // the error message reads `raw_line`, never bound

  /** A row check either returns the source's boolean or raises. */
  datatype RowCheck = Checked(ok: bool) | Raised(error: RowError)

  predicate CountersNonNegative(ts: seq<string>)
    requires |ts| == 8
  {
    forall i :: 2 <= i < 8 ==> NotNegative(ts[i])
  }

  /** `handle_one_line(max_inode, line)` with the line supplied, as written: when
      a counter fails, the diagnostic formats `raw_line`, a local the function binds
      only when it reads the line itself, so the call raises `UnboundLocalError`
      instead of returning `False`. */
  function HandleOneLineAsWritten(maxInode: int, line: string): (c: RowCheck)
    ensures c.Raised? ==> |Split(line)| == 8 && ParseInt(Split(line)[1]).None? == c.error.BadInode?
    ensures c == Checked(true) ==> |Split(line)| == 8 && CountersNonNegative(Split(line))
  {
    var ts := Split(line);
    if |ts| != 8 then Checked(false)
    else match ParseInt(ts[1])
      case None => Raised(BadInode(ts[1]))
      case Some(inode) =>
        if !CountersNonNegative(ts) then Raised(UnboundRawLine)
        else if inode > maxInode then Checked(false)
        else if inode <= 0 then Checked(false)
        else Checked(true)
  }

  /** Which row check a frame runs: the one the source has, or the evidently
      intended one. */
  datatype Version = AsWritten | Corrected

  function CheckLine(version: Version, maxInode: int, line: string): (c: RowCheck)
  {
    match version
    case AsWritten => HandleOneLineAsWritten(maxInode, line)
    case Corrected => HandleOneLine(maxInode, line)
  }

  /** `handle_one_line` as evidently intended: a failing counter is logged and the
      row rejected. A row is accepted exactly when it has eight tokens, every one
      of the six counters reads as an integer of at least 0, and the inode lies in
      `(0, maxInode]`; only an unreadable inode token still raises. */
  function HandleOneLine(maxInode: int, line: string): (c: RowCheck)
    ensures c.Raised? ==> c.error.BadInode? && |Split(line)| == 8 && ParseInt(Split(line)[1]).None?
    ensures c == Checked(true) ==> |Split(line)| == 8 && CountersNonNegative(Split(line))
  {
    var ts := Split(line);
    if |ts| != 8 then Checked(false)
    else match ParseInt(ts[1])
      case None => Raised(BadInode(ts[1]))
      case Some(inode) =>
        if !CountersNonNegative(ts) then Checked(false)
        else if inode > maxInode then Checked(false)
        else if inode <= 0 then Checked(false)
        else Checked(true)
  }

  /** The row acceptance condition: eight tokens, every counter read as an
      integer of at least 0, an inode in `(0, maxInode]`; only an unreadable
      inode raises, and then with `BadInode`. */
  lemma OneLineAcceptsIff(maxInode: int, line: string)
    ensures HandleOneLine(maxInode, line) == Checked(true) <==>
              var ts := Split(line);
              && |ts| == 8 && ParseInt(ts[1]).Some?
              && (forall i :: 2 <= i < 8 ==> ParseInt(ts[i]).Some? && ParseInt(ts[i]).value >= 0)
              && 0 < ParseInt(ts[1]).value <= maxInode
    ensures HandleOneLine(maxInode, line).Raised? <==>
              var ts := Split(line); |ts| == 8 && ParseInt(ts[1]).None?
    ensures HandleOneLine(maxInode, line).Raised? ==> HandleOneLine(maxInode, line).error.BadInode?
  {
  }

  /** As written, a counter that fails `not_negative` on an eight-token line with
      a readable inode makes the call raise, and nothing else does. */
  lemma OneLineAsWrittenRaises(maxInode: int, line: string)
    ensures HandleOneLineAsWritten(maxInode, line) == Raised(UnboundRawLine) <==>
              var ts := Split(line);
              && |ts| == 8 && ParseInt(ts[1]).Some?
              && exists i :: 2 <= i < 8 && !NotNegative(ts[i])
  {
  }

  /** The fix changes only the failing-counter case. */
  lemma OneLineFixAgrees(maxInode: int, line: string)
    ensures HandleOneLineAsWritten(maxInode, line) != Raised(UnboundRawLine) ==>
            HandleOneLine(maxInode, line) == HandleOneLineAsWritten(maxInode, line)
    ensures HandleOneLineAsWritten(maxInode, line) == Raised(UnboundRawLine) ==>
            HandleOneLine(maxInode, line) == Checked(false)
  {
  }

  // ---------------------------------------------------------------------------
  // Rows as the monitor prints them

  /** One lock row: the lock type letter, the inode number, and the six counters
      (EX count, EX time, EX average, PR count, PR time, PR average). */
  datatype DataRow = DataRow(lockType: char, inode: int, counters: seq<int>)

  predicate WellFormed(r: DataRow) {
    IsLetter(r.lockType) && |r.counters| == 6
  }

  /** The row's eight columns, each number printed by `str()`. */
  function RowTokens(r: DataRow): (ts: seq<string>)
    requires WellFormed(r)
    ensures |ts| == 8
    ensures ts[0] == [r.lockType] && ts[1] == IntString(r.inode)
    ensures forall i :: 2 <= i < 8 ==> ts[i] == IntString(r.counters[i - 2])
  {
    [[r.lockType], IntString(r.inode)] + seq(6, i requires 0 <= i < 6 => IntString(r.counters[i]))
  }

  function RowLine(r: DataRow): (line: string)
    requires WellFormed(r)
  {
    Join(RowTokens(r))
  }

  /** No counter of the row is negative. */
  predicate NoNegativeCounter(r: DataRow)
    requires WellFormed(r)
  {
    forall i :: 0 <= i < 6 ==> r.counters[i] >= 0
  }

  /** What the checker is meant to accept: an inode in `(0, maxInode]` and no
      negative counter. */
  predicate RowValid(maxInode: int, r: DataRow)
    requires WellFormed(r)
  {
    0 < r.inode <= maxInode && NoNegativeCounter(r)
  }

  /** `not_negative(str(n))` holds exactly when `n >= 0`. */
  lemma NotNegativeOfIntString(n: int)
    ensures NotNegative(IntString(n)) <==> n >= 0
  {
    ParseIntString(n);
  }

  /** Dropping the '-' of a printed integer leaves the digits of its magnitude. */
  lemma UndashedIntString(n: int)
    ensures IsDigits(RemoveChar(IntString(n), '-'))
  {
    if n < 0 {
      RemoveCharAppend("-", Decimal(-n), '-');
      assert RemoveChar("-", '-') == [];
    }
  }

  lemma RowTokensAreWords(r: DataRow)
    requires WellFormed(r)
    ensures AllWords(RowTokens(r))
  {
    var ts := RowTokens(r);
    forall i | 0 <= i < 8
      ensures IsWord(ts[i])
    {
      if i > 0 {
        var t := ts[i];
        assert forall j :: 0 <= j < |t| ==> IsDigit(t[j]) || t[j] == '-';
      }
    }
  }

  /** A character that is neither the separator, the type letter, a digit nor '-'
      does not occur in a printed row. */
  lemma RowLineLacks(r: DataRow, x: char)
    requires WellFormed(r)
    requires x != ' ' && x != r.lockType && !IsDigit(x) && x != '-'
    ensures x !in RowLine(r)
  {
    var ts := RowTokens(r);
    forall i | 0 <= i < 8
      ensures x !in ts[i]
    {
      if i > 0 {
        var t := ts[i];
        assert forall j :: 0 <= j < |t| ==> IsDigit(t[j]) || t[j] == '-';
      }
    }
    NotInJoin(ts, x);
  }

  /** Every numeric column of a printed row is digits once its '-' is dropped. */
  lemma RowShape(r: DataRow)
    requires WellFormed(r)
    ensures IsLocksShape(RowTokens(r))
  {
    var ts := RowTokens(r);
    var c := r.counters;
    forall i | 1 <= i < 8
      ensures IsDigits(RemoveChar(ts[i], '-'))
    {
      if i == 1 { UndashedIntString(r.inode); }
      else { UndashedIntString(c[i - 2]); }
    }
  }

  /** No marker word of the header lines occurs in a printed row: it holds at most
      one letter, and each marker has two distinct letters. */
  lemma RowLacksMarkers(r: DataRow)
    requires WellFormed(r)
    ensures !IsFirstLine(RowLine(r)) && !IsSecondLine(RowLine(r))
    ensures !IsThirdLine(RowLine(r)) && !IsHeadLine(RowLine(r))
  {
    var line := RowLine(r);
    if r.lockType == 'o' {
      RowLineLacks(r, 'l');
      MissingCharNotContained(line, "o2locktop", 2);
    } else {
      RowLineLacks(r, 'o');
      MissingCharNotContained(line, "o2locktop", 0);
    }
    if r.lockType == 'a' {
      RowLineLacks(r, 'c');
      MissingCharNotContained(line, "acquisitions", 1);
    } else {
      RowLineLacks(r, 'a');
      MissingCharNotContained(line, "acquisitions", 0);
    }
    if r.lockType == 'r' {
      RowLineLacks(r, 'e');
      MissingCharNotContained(line, "resources", 1);
    } else {
      RowLineLacks(r, 'r');
      MissingCharNotContained(line, "resources", 0);
    }
    RowLineLacks(r, '(');
    MissingCharNotContained(line, "TIME(us)", 4);
  }

  /** A printed row is classified as a lock row whatever its numbers, negative
      ones included. */
  lemma RowLineIsLocks(r: DataRow)
    requires WellFormed(r)
    ensures Classify(RowLine(r)) == Locks
  {
    var ts := RowTokens(r);
    RowTokensAreWords(r);
    SplitJoin(ts);
    RowShape(r);
    RowLacksMarkers(r);
  }

  /** The six counter columns pass `not_negative` exactly when no counter is
      negative. */
  lemma RowCounters(r: DataRow)
    requires WellFormed(r)
    ensures CountersNonNegative(RowTokens(r)) <==> forall i :: 0 <= i < 6 ==> r.counters[i] >= 0
  {
    var ts := RowTokens(r);
    var c := r.counters;
    forall i | 0 <= i < 6
      ensures NotNegative(ts[i + 2]) <==> c[i] >= 0
    {
      NotNegativeOfIntString(c[i]);
    }
  }

  /** The corrected checker accepts a printed row exactly when the row is valid,
      and never raises on one. */
  lemma RowLineCheck(maxInode: int, r: DataRow)
    requires WellFormed(r)
    ensures HandleOneLine(maxInode, RowLine(r)) == Checked(RowValid(maxInode, r))
  {
    var ts := RowTokens(r);
    RowTokensAreWords(r);
    SplitJoin(ts);
    ParseIntString(r.inode);
    RowCounters(r);
  }

  /** As written, a printed row with a negative counter crashes the checker, and
      that is the only way a printed row crashes it. */
  lemma RowLineAsWritten(maxInode: int, r: DataRow)
    requires WellFormed(r)
    ensures HandleOneLineAsWritten(maxInode, RowLine(r)) == Raised(UnboundRawLine) <==>
            exists i :: 0 <= i < 6 && r.counters[i] < 0
    ensures HandleOneLineAsWritten(maxInode, RowLine(r)) != Raised(UnboundRawLine) ==>
            HandleOneLineAsWritten(maxInode, RowLine(r)) == Checked(RowValid(maxInode, r))
  {
    RowLineCheck(maxInode, r);
    OneLineFixAgrees(maxInode, RowLine(r));
    var ts := RowTokens(r);
    RowTokensAreWords(r);
    SplitJoin(ts);
    ParseIntString(r.inode);
    RowCounters(r);
  }

  /** The row "M 5 -1 0 0 0 0 0" under a maximum inode of 10: the checker as
      written raises where the corrected one rejects the row. */
  lemma NegativeCounterCrashes()
    ensures WellFormed(DataRow('M', 5, [-1, 0, 0, 0, 0, 0]))
    ensures Classify(RowLine(DataRow('M', 5, [-1, 0, 0, 0, 0, 0]))) == Locks
    ensures HandleOneLineAsWritten(10, RowLine(DataRow('M', 5, [-1, 0, 0, 0, 0, 0])))
            == Raised(UnboundRawLine)
    ensures HandleOneLine(10, RowLine(DataRow('M', 5, [-1, 0, 0, 0, 0, 0]))) == Checked(false)
  {
    var r := DataRow('M', 5, [-1, 0, 0, 0, 0, 0]);
    RowLineIsLocks(r);
    RowLineAsWritten(10, r);
    RowLineCheck(10, r);
    assert r.counters[0] < 0;
  }

  /** A row whose inode column is "1-2" and whose counters are all "0". */
  const DashedRow: seq<string> := ["M", "1-2"] + seq(6, _ => "0")

  lemma DashedRowShape()
    ensures AllWords(DashedRow) && IsLocksShape(DashedRow)
  {
    DashedRowWords();
    DashedRowDigits();
  }

  lemma DashedRowWords()
    ensures AllWords(DashedRow)
  {
    assert IsWord("M") && IsWord("1-2") && IsWord("0");
  }

  lemma DashedRowDigits()
    ensures IsLocksShape(DashedRow)
  {
    DashDropped();
    assert RemoveChar("0", '-') == "0";
    assert IsAlpha(DashedRow[0]) && IsDigits("12") && IsDigits("0");
    forall i | 1 <= i < 8
      ensures IsDigits(RemoveChar(DashedRow[i], '-'))
    {
      if i > 1 {
        assert DashedRow[i] == "0";
      }
    }
  }

  lemma DashDropped()
    ensures RemoveChar("1-2", '-') == "12"
  {
    assert RemoveChar("1-2", '-') == "1" + RemoveChar("-2", '-');
    assert RemoveChar("-2", '-') == RemoveChar("2", '-');
  }

  lemma DashedInodeUnreadable()
    ensures ParseInt("1-2") == None
  {
    ParseDashDigits("1-2");
    assert !IsDigits("1-2");
  }

  /** The row holds none of the letters 'o', 'a', 'r' nor a parenthesis. */
  lemma DashedRowLacks(x: char)
    requires x in "oar("
    ensures x !in Join(DashedRow)
  {
    assert x !in "M" && x !in "1-2" && x !in "0";
    NotInJoin(DashedRow, x);
  }

  lemma DashedRowLacksMarkers()
    ensures !IsFirstLine(Join(DashedRow)) && !IsSecondLine(Join(DashedRow))
    ensures !IsThirdLine(Join(DashedRow)) && !IsHeadLine(Join(DashedRow))
  {
    var line := Join(DashedRow);
    DashedRowLacks('o');
    DashedRowLacks('a');
    DashedRowLacks('r');
    DashedRowLacks('(');
    MissingCharNotContained(line, "o2locktop", 0);
    MissingCharNotContained(line, "acquisitions", 0);
    MissingCharNotContained(line, "resources", 0);
    MissingCharNotContained(line, "TIME(us)", 4);
  }

  /** The classifier only asks that a number be digits once its dashes are
      dropped, so "M 1-2 0 0 0 0 0 0" is a lock row; `int("1-2")` then raises. */
  lemma DashedInodeRaises(maxInode: int)
    ensures Classify(Join(DashedRow)) == Locks
    ensures HandleOneLine(maxInode, Join(DashedRow)) == Raised(BadInode("1-2"))
    ensures HandleOneLineAsWritten(maxInode, Join(DashedRow)) == Raised(BadInode("1-2"))
  {
    DashedRowShape();
    DashedInodeUnreadable();
    SplitJoin(DashedRow);
    DashedRowLacksMarkers();
    OneLineFixAgrees(maxInode, Join(DashedRow));
  }
}

=== FILE: text.dfy ===
/** Python string primitives the stream checker relies on: `str.split()` with no
    argument, `str.strip()`, the `in` substring test, `str.replace`, `isalpha` and
    `isdigit`. Strings are `seq<char>`. */
module Text {

  /** The characters Python's `str.isspace()` accepts; `split()` and `strip()`
      with no argument separate and trim on exactly these. */
  predicate IsSpace(c: char) {
    || ('\t' <= c <= '\r')
    || ('\U{1C}' <= c <= '\U{1F}')
    || c == ' ' || c == '\U{85}' || c == '\U{A0}' || c == '\U{1680}'
    || ('\U{2000}' <= c <= '\U{200A}')
    || c == '\U{2028}' || c == '\U{2029}' || c == '\U{202F}' || c == '\U{205F}'
    || c == '\U{3000}'
  }

  predicate AllSpace(s: string) {
    forall i :: 0 <= i < |s| ==> IsSpace(s[i])
  }

  /** A token `split()` can produce: non-empty and free of separators. */
  predicate IsWord(s: string) {
    |s| > 0 && forall i :: 0 <= i < |s| ==> !IsSpace(s[i])
  }

  predicate IsLetter(c: char) {
    ('a' <= c <= 'z') || ('A' <= c <= 'Z')
  }

  predicate IsDigit(c: char) {
    '0' <= c <= '9'
  }

  /** `str.isalpha()`: non-empty and every character a letter. */
  predicate IsAlpha(s: string) {
    |s| > 0 && forall i :: 0 <= i < |s| ==> IsLetter(s[i])
  }

  /** `str.isdigit()`: non-empty and every character a digit. */
  predicate IsDigits(s: string) {
    |s| > 0 && forall i :: 0 <= i < |s| ==> IsDigit(s[i])
  }

  // ---------------------------------------------------------------------------
  // Substring test (`key in line`)

  predicate StartsWith(s: string, p: string) {
    |p| <= |s| && s[..|p|] == p
  }

  predicate OccursAt(s: string, p: string, i: int) {
    0 <= i && i + |p| <= |s| && s[i..i + |p|] == p
  }

  /** Python's `p in s`, scanning from the left. */
  predicate Contains(s: string, p: string)
    decreases |s|
  {
    StartsWith(s, p) || (|s| > 0 && Contains(s[1..], p))
  }

  /** The scan finds `p` exactly when `p` occurs at some position of `s`. */
  lemma {:induction false} ContainsIffOccurs(s: string, p: string)
    ensures Contains(s, p) <==> exists i :: OccursAt(s, p, i)
    decreases |s|
  {
    if StartsWith(s, p) {
      assert OccursAt(s, p, 0);
    } else if |s| == 0 {
    } else {
      ContainsIffOccurs(s[1..], p);
      if exists i :: OccursAt(s[1..], p, i) {
        var i :| OccursAt(s[1..], p, i);
        OccursShift(s, p, i);
      }
      forall i | OccursAt(s, p, i) ensures OccursAt(s[1..], p, i - 1) {
        assert i != 0 by { assert s[0..|p|] == s[..|p|]; }
        OccursUnshift(s, p, i);
      }
    }
  }

  lemma OccursShift(s: string, p: string, i: int)
    requires |s| > 0 && OccursAt(s[1..], p, i)
    ensures OccursAt(s, p, i + 1)
  {
    assert s[i + 1..i + 1 + |p|] == s[1..][i..i + |p|];
  }

  lemma OccursUnshift(s: string, p: string, i: int)
    requires |s| > 0 && i >= 1 && OccursAt(s, p, i)
    ensures OccursAt(s[1..], p, i - 1)
  {
    assert s[1..][i - 1..i - 1 + |p|] == s[i..i + |p|];
  }

  /** A string lacking one of `p`'s characters cannot contain `p`. */
  lemma MissingCharNotContained(s: string, p: string, k: int)
    requires 0 <= k < |p| && p[k] !in s
    ensures !Contains(s, p)
  {
    ContainsIffOccurs(s, p);
    forall i ensures !OccursAt(s, p, i) {
      if 0 <= i && i + |p| <= |s| {
        assert s[i..i + |p|][k] == s[i + k];
      }
    }
  }

  // ---------------------------------------------------------------------------
  // `str.replace`

  /** `s.replace(pat, rep)`: leftmost, non-overlapping occurrences of a non-empty
      pattern are replaced. */
  function ReplaceAll(s: string, pat: string, rep: string): (r: string)
    requires |pat| > 0
    ensures |rep| <= |pat| ==> |r| <= |s|
    ensures forall c :: c in r ==> c in s || c in rep
    decreases |s|
  {
    if |s| < |pat| then s
    else if s[..|pat|] == pat then rep + ReplaceAll(s[|pat|..], pat, rep)
    else [s[0]] + ReplaceAll(s[1..], pat, rep)
  }

  /** Replacing a pattern that does not occur changes nothing. */
  lemma {:induction false} ReplaceAbsent(s: string, pat: string, rep: string)
    requires |pat| > 0 && !Contains(s, pat)
    ensures ReplaceAll(s, pat, rep) == s
    decreases |s|
  {
    if |s| >= |pat| {
      ReplaceAbsent(s[1..], pat, rep);
      assert [s[0]] + s[1..] == s;
    }
  }

  /** Where the pattern does not start the text, its first character is kept. */
  lemma ReplaceStep(s: string, pat: string, rep: string)
    requires |pat| > 0 && |pat| <= |s| && !OccursAt(s, pat, 0)
    ensures ReplaceAll(s, pat, rep) == [s[0]] + ReplaceAll(s[1..], pat, rep)
  {
    assert s[0..|pat|] == s[..|pat|];
  }

  /** The scan copies a prefix holding no occurrence of the pattern. */
  lemma {:induction false} ReplaceSkip(s: string, pat: string, rep: string, k: nat)
    requires |pat| > 0 && k + |pat| <= |s|
    requires forall j :: 0 <= j < k ==> !OccursAt(s, pat, j)
    ensures ReplaceAll(s, pat, rep) == s[..k] + ReplaceAll(s[k..], pat, rep)
    decreases k
  {
    if k > 0 {
      ReplaceStep(s, pat, rep);
      ShiftNoOccurrence(s, pat, k);
      ReplaceSkip(s[1..], pat, rep, k - 1);
      assert s[1..][k - 1..] == s[k..];
      KeptPrefix(s, k, ReplaceAll(s, pat, rep), ReplaceAll(s[1..], pat, rep), ReplaceAll(s[k..], pat, rep));
    }
  }

  /** One kept character followed by `k - 1` kept characters is `k` of them. */
  lemma KeptPrefix(s: string, k: nat, a: string, b: string, c: string)
    requires 0 < k <= |s|
    requires a == [s[0]] + b && b == s[1..][..k - 1] + c
    ensures a == s[..k] + c
  {
    assert [s[0]] + s[1..][..k - 1] == s[..k];
  }

  lemma ShiftNoOccurrence(s: string, pat: string, k: nat)
    requires 0 < k <= |s|
    requires forall j :: 0 <= j < k ==> !OccursAt(s, pat, j)
    ensures forall j :: 0 <= j < k - 1 ==> !OccursAt(s[1..], pat, j)
  {
    forall j | 0 <= j < k - 1 ensures !OccursAt(s[1..], pat, j) {
      assert !OccursAt(s, pat, j + 1);
      if j + |pat| <= |s| - 1 {
        assert s[1..][j..j + |pat|] == s[j + 1..j + 1 + |pat|];
      }
    }
  }

  /** `s.replace(c, "")` for a one-character pattern. */
  function RemoveChar(s: string, c: char): (r: string)
    ensures forall x :: x in r <==> x in s && x != c
    ensures |r| <= |s|
    ensures c !in s ==> r == s
  {
    if |s| == 0 then []
    else (if s[0] == c then [] else [s[0]]) + RemoveChar(s[1..], c)
  }

  lemma {:induction false} RemoveCharAppend(a: string, b: string, c: char)
    ensures RemoveChar(a + b, c) == RemoveChar(a, c) + RemoveChar(b, c)
    decreases |a|
  {
    if |a| == 0 {
      assert a + b == b;
    } else {
      var h := if a[0] == c then [] else [a[0]];
      assert (a + b)[0] == a[0];
      assert (a + b)[1..] == a[1..] + b;
      RemoveCharAppend(a[1..], b, c);
      RemoveCharJoin(h, RemoveChar(a + b, c), RemoveChar(a, c), RemoveChar(a[1..], c), RemoveChar(b, c));
    }
  }

  /** The inductive step of `RemoveCharAppend`, on the pieces alone. */
  lemma RemoveCharJoin(h: string, whole: string, left: string, rest: string, right: string)
    requires whole == h + (rest + right) && left == h + rest
    ensures whole == left + right
  {
    AppendAssociates(h, rest, right);
  }

  lemma AppendAssociates<T>(x: seq<T>, y: seq<T>, z: seq<T>)
    ensures x + y + z == x + (y + z)
  {
  }

  /** Removing a character twice is removing it once. */
  lemma RemoveCharIdempotent(s: string, c: char)
    ensures RemoveChar(RemoveChar(s, c), c) == RemoveChar(s, c)
  {
  }

  /** `s.replace(a, b)` for one-character `a` and `b`. */
  function ReplaceChar(s: string, a: char, b: char): (r: string)
    ensures |r| == |s|
    ensures forall i :: 0 <= i < |s| ==> r[i] == (if s[i] == a then b else s[i])
  {
    seq(|s|, i requires 0 <= i < |s| => if s[i] == a then b else s[i])
  }

  // ---------------------------------------------------------------------------
  // `str.strip()`

  /** Number of separators at the front of `s`. */
  function LeadingSpaces(s: string): (n: nat)
    ensures n <= |s|
    ensures forall i :: 0 <= i < n ==> IsSpace(s[i])
    ensures n < |s| ==> !IsSpace(s[n])
  {
    if |s| > 0 && IsSpace(s[0]) then 1 + LeadingSpaces(s[1..]) else 0
  }

  /** Number of separators at the back of `s`. */
  function TrailingSpaces(s: string): (n: nat)
    ensures n <= |s|
    ensures forall i :: |s| - n <= i < |s| ==> IsSpace(s[i])
    ensures n < |s| ==> !IsSpace(s[|s| - n - 1])
  {
    if |s| > 0 && IsSpace(s[|s| - 1]) then 1 + TrailingSpaces(s[..|s| - 1]) else 0
  }

  /** `s.strip()`: `s` is some separators, the result, then some separators; the
      result neither starts nor ends with a separator. */
  function Strip(s: string): (r: string)
    ensures exists i :: StrippedAt(s, r, i)
    ensures |r| > 0 ==> !IsSpace(r[0]) && !IsSpace(r[|r| - 1])
    ensures r == [] <==> AllSpace(s)
  {
    var a := LeadingSpaces(s);
    if a == |s| then
      assert StrippedAt(s, [], |s|);
      []
    else
      var b := TrailingSpaces(s);
      assert a < |s| - b;
      assert StrippedAt(s, s[a..|s| - b], a);
      s[a..|s| - b]
  }

  /** `s` is separators, then `r` from position `i`, then separators. */
  predicate StrippedAt(s: string, r: string, i: int) {
    0 <= i <= |s| - |r| && s[i..i + |r|] == r && AllSpace(s[..i]) && AllSpace(s[i + |r|..])
  }

  // ---------------------------------------------------------------------------
  // `str.split()` with no argument

  /** Length of the leading run of non-separators. */
  function WordLen(s: string): (n: nat)
    ensures n <= |s|
    ensures forall i :: 0 <= i < n ==> !IsSpace(s[i])
    ensures n < |s| ==> IsSpace(s[n])
  {
    if |s| == 0 || IsSpace(s[0]) then 0 else 1 + WordLen(s[1..])
  }

  /** `s.split()`: the maximal runs of non-separators, in order. The handlers'
      `s.strip().split()` is the same split (`SplitIgnoresStrip`). */
  function Split(s: string): (r: seq<string>)
    ensures forall i :: 0 <= i < |r| ==> IsWord(r[i])
    decreases |s|
  {
    if |s| == 0 then []
    else if IsSpace(s[0]) then Split(s[1..])
    else
      var n := WordLen(s);
      [s[..n]] + Split(s[n..])
  }

  /** Joins tokens with a single space, the inverse of `Split` on words. */
  function Join(ts: seq<string>): (r: string)
  {
    if |ts| == 0 then ""
    else if |ts| == 1 then ts[0]
    else ts[0] + " " + Join(ts[1..])
  }

  predicate AllWords(ts: seq<string>) {
    forall i :: 0 <= i < |ts| ==> IsWord(ts[i])
  }

  lemma WordLenOfWord(t: string, rest: string)
    requires IsWord(t)
    requires |rest| == 0 || IsSpace(rest[0])
    ensures WordLen(t + rest) == |t|
  {
    var u := t + rest;
    assert forall i :: 0 <= i < |t| ==> u[i] == t[i];
    assert |t| < |u| ==> u[|t|] == rest[0];
  }

  /** Splitting joined words gives the words back. */
  lemma {:induction false} SplitJoin(ts: seq<string>)
    requires AllWords(ts)
    ensures Split(Join(ts)) == ts
    decreases |ts|
  {
    if |ts| == 0 {
    } else if |ts| == 1 {
      var t := ts[0];
      WordLenOfWord(t, "");
      assert t + "" == t;
      assert t[|t|..] == [];
    } else {
      var t := ts[0];
      var j := Join(ts[1..]);
      var s := t + " " + j;
      assert s == t + (" " + j);
      WordLenOfWord(t, " " + j);
      assert s[..|t|] == t;
      assert s[|t|..] == " " + j;
      assert (" " + j)[1..] == j;
      SplitJoin(ts[1..]);
      assert Split(s) == [t] + Split(" " + j);
    }
  }

  /** Every character of a join comes from a token or is the separating space. */
  lemma {:induction false} JoinChars(ts: seq<string>, c: char)
    requires c in Join(ts)
    ensures c == ' ' || exists i :: 0 <= i < |ts| && c in ts[i]
    decreases |ts|
  {
    if |ts| > 1 {
      if c !in ts[0] && c != ' ' {
        assert c in Join(ts[1..]);
        JoinChars(ts[1..], c);
        var i :| 0 <= i < |ts[1..]| && c in ts[1..][i];
        assert c in ts[i + 1];
      }
    } else if |ts| == 1 {
      assert c in ts[0];
    }
  }

  /** A character other than the space that no token holds is not in the join. */
  lemma NotInJoin(ts: seq<string>, c: char)
    requires c != ' ' && forall i :: 0 <= i < |ts| ==> c !in ts[i]
    ensures c !in Join(ts)
  {
    if c in Join(ts) {
      JoinChars(ts, c);
    }
  }

  /** Words joined by spaces neither start nor end with a separator. */
  lemma {:induction false} JoinEdges(ts: seq<string>)
    requires AllWords(ts) && |ts| > 0
    ensures |Join(ts)| > 0
    ensures Join(ts)[0] == ts[0][0]
    ensures Join(ts)[|Join(ts)| - 1] == ts[|ts| - 1][|ts[|ts| - 1]| - 1]
    decreases |ts|
  {
    if |ts| > 1 {
      JoinEdges(ts[1..]);
    }
  }

  lemma JoinIsStripped(ts: seq<string>)
    requires AllWords(ts) && |ts| > 0
    ensures Strip(Join(ts)) == Join(ts)
  {
    JoinEdges(ts);
    assert IsWord(ts[0]) && IsWord(ts[|ts| - 1]);
    StripNoEdgeSpace(Join(ts));
  }

  lemma ContainsInAppend(a: string, b: string, p: string)
    requires Contains(a, p) || Contains(b, p)
    ensures Contains(a + b, p)
  {
    ContainsIffOccurs(a, p);
    ContainsIffOccurs(b, p);
    ContainsIffOccurs(a + b, p);
    if Contains(a, p) {
      var i :| OccursAt(a, p, i);
      assert (a + b)[i..i + |p|] == a[i..i + |p|];
      assert OccursAt(a + b, p, i);
    } else {
      var i :| OccursAt(b, p, i);
      assert (a + b)[|a| + i..|a| + i + |p|] == b[i..i + |p|];
      assert OccursAt(a + b, p, |a| + i);
    }
  }

  /** A join contains whatever one of its tokens contains. */
  lemma {:induction false} ContainsInJoin(ts: seq<string>, k: int, p: string)
    requires 0 <= k < |ts| && Contains(ts[k], p)
    ensures Contains(Join(ts), p)
    decreases |ts|
  {
    if |ts| > 1 {
      if k == 0 {
        ContainsInAppend(ts[0], " " + Join(ts[1..]), p);
        assert ts[0] + " " + Join(ts[1..]) == ts[0] + (" " + Join(ts[1..]));
      } else {
        ContainsInJoin(ts[1..], k - 1, p);
        ContainsInAppend(ts[0] + " ", Join(ts[1..]), p);
      }
    }
  }

  /** A string of separators splits into nothing, and only such a string does. */
  lemma {:induction false} SplitEmptyIffAllSpace(s: string)
    ensures Split(s) == [] <==> AllSpace(s)
    decreases |s|
  {
    if |s| > 0 {
      SplitEmptyIffAllSpace(s[1..]);
      if IsSpace(s[0]) {
        if AllSpace(s[1..]) {
          assert forall i :: 1 <= i < |s| ==> s[i] == s[1..][i - 1];
        }
      }
    }
  }

  lemma {:induction false} SplitDropTrailingSpace(s: string, c: char)
    requires IsSpace(c)
    ensures Split(s + [c]) == Split(s)
    decreases |s|
  {
    var t := s + [c];
    if |s| == 0 {
      assert t[1..] == [];
    } else if IsSpace(s[0]) {
      assert t[1..] == s[1..] + [c];
      SplitDropTrailingSpace(s[1..], c);
    } else {
      var n := WordLen(s);
      if n < |s| {
        WordLenOfWord(s[..n], s[n..] + [c]);
        assert s[..n] + (s[n..] + [c]) == t;
      } else {
        WordLenOfWord(s, [c]);
      }
      assert t[..n] == s[..n];
      assert t[n..] == s[n..] + [c];
      SplitDropTrailingSpace(s[n..], c);
    }
  }

  lemma {:induction false} SplitDropLeadingSpaces(s: string, n: nat)
    requires n <= |s| && AllSpace(s[..n])
    ensures Split(s[n..]) == Split(s)
    decreases n
  {
    if n > 0 {
      assert IsSpace(s[..n][0]);
      assert s[1..][..n - 1] == s[1..n];
      assert s[1..][n - 1..] == s[n..];
      SplitDropLeadingSpaces(s[1..], n - 1);
    }
  }

  lemma {:induction false} SplitDropTrailingSpaces(s: string, n: nat)
    requires n <= |s| && AllSpace(s[|s| - n..])
    ensures Split(s[..|s| - n]) == Split(s)
    decreases n
  {
    if n > 0 {
      var p := s[..|s| - 1];
      TrailingSpaceStep(s, p, n);
      SplitDropTrailingSpace(p, s[|s| - 1]);
      SplitDropTrailingSpaces(p, n - 1);
    } else {
      assert s[..|s|] == s;
    }
  }

  /** Dropping the last of n trailing separators leaves n - 1 of them. */
  lemma TrailingSpaceStep(s: string, p: string, n: nat)
    requires 0 < n <= |s| && AllSpace(s[|s| - n..]) && p == s[..|s| - 1]
    ensures s == p + [s[|s| - 1]] && IsSpace(s[|s| - 1])
    ensures AllSpace(p[|p| - (n - 1)..]) && p[..|p| - (n - 1)] == s[..|s| - n]
  {
    assert s[|s| - n..][n - 1] == s[|s| - 1];
    var u, w := p[|p| - (n - 1)..], s[|s| - n..];
    assert forall j :: 0 <= j < |u| ==> u[j] == w[j];
  }

  /** `s.strip().split()` is `s.split()`: the strip the source does first changes
      no token. */
  lemma SplitIgnoresStrip(s: string)
    ensures Split(Strip(s)) == Split(s)
  {
    var r := Strip(s);
    var i :| StrippedAt(s, r, i);
    SplitDropLeadingSpaces(s, i);
    var t := s[i..];
    assert t[..|t| - (|t| - |r|)] == r;
    assert t[|t| - (|t| - |r|)..] == s[i + |r|..];
    SplitDropTrailingSpaces(t, |t| - |r|);
  }

  /** A string with no separator at either end is its own strip. */
  lemma StripNoEdgeSpace(s: string)
    requires |s| > 0 ==> !IsSpace(s[0]) && !IsSpace(s[|s| - 1])
    ensures Strip(s) == s
  {
  }
}

=== FILE: verdicts.dfy ===
/** The pass/fail verdicts the checker logs: the static test's ten-percent
    window, and the dynamic test's two criteria, which must see the lock count
    grow while the monitored directory is being listed. */
module Verdicts {
  import opened Options

  // ---------------------------------------------------------------------------
  // The static test

  /** `total1 * 1.1 >= total2 and total1 * 0.9 <= total2`, with both factors
      cleared of their denominator. */
  predicate StaticPass(total1: int, total2: int): (pass: bool)
    ensures pass ==> 0 <= total1 && 0 <= total2
    ensures pass && total1 < 10 ==> total2 == total1
  {
    10 * total2 <= 11 * total1 && 9 * total1 <= 10 * total2
  }

  /** The window, as the source writes it over exact rationals: the second count
      lies between nine tenths and eleven tenths of the first. */
  lemma StaticWindow(total1: int, total2: int)
    ensures StaticPass(total1, total2) <==>
      (total2 as real <= total1 as real * 1.1 && total1 as real * 0.9 <= total2 as real)
  {
  }

  /** Only a non-negative first count has a window at all, and every count in it
      is non-negative. */
  lemma {:induction false} StaticNeedsNonNegative(total1: int, total2: int)
    requires StaticPass(total1, total2)
    ensures 0 <= total1 && 0 <= total2
  {
  }

  /** An unchanged count passes exactly when it is not negative. */
  lemma StaticReflexive(t: int)
    ensures StaticPass(t, t) <==> t >= 0
  {
  }

  /** The window is an interval: a count between two passing counts passes. */
  lemma StaticConvex(total1: int, a: int, b: int, c: int)
    requires StaticPass(total1, a) && StaticPass(total1, b) && a <= c <= b
    ensures StaticPass(total1, c)
  {
  }

  /** 210 is within ten percent of 200; 230 is not, nor is 179. */
  lemma StaticExamples()
    ensures StaticPass(200, 210) && StaticPass(200, 220) && StaticPass(200, 180)
    ensures !StaticPass(200, 230) && !StaticPass(200, 179) && !StaticPass(200, 221)
  {
  }

  // ---------------------------------------------------------------------------
  // The dynamic test

  /** The local criterion's loop: the index of the first sample above `total1`,
      where the source logs success and breaks. */
  function FirstExceeding(total1: int, samples: seq<int>): (r: Option<nat>)
    ensures r.Some? ==> r.value < |samples| && total1 < samples[r.value]
    ensures r.Some? ==> forall j :: 0 <= j < r.value ==> samples[j] <= total1
    ensures r.None? ==> forall j :: 0 <= j < |samples| ==> samples[j] <= total1
  {
    if |samples| == 0 then None
    else if total1 < samples[0] then Some(0)
    else match FirstExceeding(total1, samples[1..])
      case None => None
      case Some(k) => Some(k + 1)
  }

  /** The local verdict: some sample exceeds the first count. */
  predicate LocalPass(total1: int, samples: seq<int>): (pass: bool)
    ensures pass <==> exists j :: 0 <= j < |samples| && total1 < samples[j]
  {
    FirstExceeding(total1, samples).Some?
  }

  /** The local verdict as the source computes it, with `flag` and `break`. */
  method LocalCheck(total1: int, samples: seq<int>) returns (flag: bool, total2: int)
    ensures flag <==> exists j :: 0 <= j < |samples| && total1 < samples[j]
    ensures flag <==> LocalPass(total1, samples)
    ensures flag ==> total2 == samples[FirstExceeding(total1, samples).value]
  {
    flag := false;
    total2 := 0;
    var i := 0;
    while i < |samples|
      invariant 0 <= i <= |samples|
      invariant forall j :: 0 <= j < i ==> samples[j] <= total1
    {
      if total1 < samples[i] {
        flag := true;
        total2 := samples[i];
        FirstExceedingAt(total1, samples, i);
        return;
      }
      i := i + 1;
    }
  }

  /** The first sample above `total1` is the one found scanning from the left. */
  lemma {:induction false} FirstExceedingAt(total1: int, samples: seq<int>, i: nat)
    requires i < |samples| && total1 < samples[i]
    requires forall j :: 0 <= j < i ==> samples[j] <= total1
    ensures FirstExceeding(total1, samples) == Some(i)
  {
    if i > 0 {
      assert total1 >= samples[0];
      forall j | 0 <= j < i - 1 ensures samples[1..][j] <= total1 {
        assert samples[1..][j] == samples[j + 1];
      }
      FirstExceedingAt(total1, samples[1..], i - 1);
    }
  }

  /** With a first count of 100, samples holding 145 pass; samples that never
      exceed 100 fail, whether read locally or remotely. */
  lemma DynamicExamples()
    ensures LocalPass(100, [80, 90, 145, 70, 60, 100])
    ensures !LocalPass(100, [80, 90, 95, 70, 60, 100])
    ensures RemotePass(100, [80, 90, 145, 70, 60, 100])
    ensures !RemotePass(100, [80, 90, 95, 70, 60, 100])
  {
    LocalAgreesWithRemote(100, [80, 90, 145, 70, 60, 100]);
    LocalAgreesWithRemote(100, [80, 90, 95, 70, 60, 100]);
    assert [80, 90, 145, 70, 60, 100][2] == 145;
  }

  /** Python's `max` over a non-empty list. */
  function Max(s: seq<int>): (m: int)
    requires |s| > 0
    ensures m in s
    ensures forall j :: 0 <= j < |s| ==> s[j] <= m
  {
    if |s| == 1 then s[0]
    else var rest := Max(s[1..]); if s[0] < rest then rest else s[0]
  }

  /** The remote verdict: the largest sample exceeds the first count. */
  predicate RemotePass(total1: int, samples: seq<int>): (pass: bool)
    requires |samples| > 0
    ensures pass <==> exists j :: 0 <= j < |samples| && total1 < samples[j]
  {
    total1 < Max(samples)
  }

  /** On the same samples, the local and the remote criteria agree. */
  lemma LocalAgreesWithRemote(total1: int, samples: seq<int>)
    requires |samples| > 0
    ensures LocalPass(total1, samples) <==> RemotePass(total1, samples)
  {
    if RemotePass(total1, samples) {
      var m := Max(samples);
      var j :| 0 <= j < |samples| && samples[j] == m;
      assert FirstExceeding(total1, samples).Some?;
    }
  }
}
